=== FILE: README.md ===
# Knowledge-base retrieval core of the ChatBot service

This project models the retrieval layer of a small retrieval-augmented
chatbot and proves properties of that model in Dafny. The layer comes in two
variants that share one chunking scheme:

- `database_light.py` keeps the knowledge base as an in-memory list of chunk
  texts. It answers a query by keyword overlap: lower-cased `\w+` token sets,
  score `|Q ∩ T| / |Q|`, a stable sort by descending score, the first
  `n_results`, and only positive scores kept.
- `database.py` stores the same chunks in a ChromaDB collection, with
  metadata `{source, chunk_id}` and ids `stem_i`.

Both loaders skip when something is already loaded, unless a reload is
forced. A missing knowledge directory changes nothing. Otherwise the loader
splits every `*.txt` file at `"\n\n"`, strips each segment, drops blank ones
and cuts the rest to 200 characters.

Modules, in dependency order:

| module | file | what it holds |
|---|---|---|
| `Text` | `text.dfy` | `str.strip()`, `str.split('\n\n')`, the 200-character cut, `str(i)` |
| `Tokens` | `tokens.dfy` | `str.lower()`, `re.findall(r'\w+', …)`, token sets |
| `Scoring` | `scoring.dfy` | `simple_similarity` |
| `Chunking` | `chunking.dfy` | the chunks of a directory, with their provenance |
| `Ranking` | `ranking.dfy` | the stable descending sort, the `[:n]` slice and the positive filter of `query_knowledge_base` |
| `LightStore` | `light_store.dfy` | the in-memory `load_knowledge_base` and `get_documents_count` |
| `ChromaStore` | `chroma_store.dfy` | the persistent `load_knowledge_base`: batch, ids, delete and add |

State is passed explicitly:

- The module-level list of `database_light.py` is a parameter and a result.
- The ChromaDB collection is a sequence of records. `collection.count()` is
  its length, `get()['ids']` its ids, `delete` a filter and `add` an append.
- The knowledge directory is `Missing` or a sequence of `(stem, content)`
  files, in the order the directory listing yields them.

Scores are exact `real`s. `n_results` is an unbounded integer with Python's
slice semantics.

## Model

| member | source | states |
|---|---|---|
| Text.TrimStartSpec | database_light.py:30 | stripping the left end drops a prefix made only of whitespace and keeps the rest unchanged |
| Text.TrimEndSpec | database_light.py:30 | stripping the right end drops a suffix made only of whitespace and keeps the rest unchanged |
| Text.Strip | database_light.py:30 | a stripped segment is no longer than the segment and neither starts nor ends with whitespace |
| Text.StripSpec | database_light.py:30 | `strip()` leaves a contiguous piece of the segment with only whitespace around it; the result is empty exactly when the segment is all whitespace |
| Text.StripUnique | database_light.py:30 | only one piece of a string fits that description, so the description determines `strip()` |
| Text.Truncate | database_light.py:33-34 | the cut keeps a prefix; a string of at most 200 characters is unchanged; a longer one becomes exactly its first 200 characters |
| Text.Split | database_light.py:28 | `split('\n\n')` always yields at least one part |
| Text.JoinSplit | database_light.py:28 | joining the parts with `"\n\n"` gives back the content, so splitting loses nothing |
| Text.SplitWellShaped | database_light.py:28 | no part contains `"\n\n"`, and no part but the last ends in a newline, as a left-to-right scan for non-overlapping separators leaves them |
| Text.SplitSeparatorFree | database_light.py:28 | content without a blank-line separator is one part |
| Text.SplitUnique | database_light.py:28 | any decomposition with that shape that joins back to the content is the split, so the two lemmas above characterise it |
| Text.DecimalString | database.py:61 | `str(i)` is a non-empty string of digits that starts with `0` only for 0 |
| Text.DecimalRoundTrip | database.py:61 | reading the digits of `str(i)` back gives `i` |
| Text.DecimalStringInjective | database.py:61 | different chunk indices give different digit strings |
| Tokens.LowerChar | database_light.py:41 | a lower-cased character is never an upper-case letter, is a word character exactly when the original is, and equals it when it was not upper-case |
| Tokens.Lower | database_light.py:41 | `lower()` keeps the length and lower-cases each character on its own |
| Tokens.RunLength | database_light.py:41 | the run of word characters at the start is all word characters and cannot be extended |
| Tokens.Words | database_light.py:41 | every word `findall(r'\w+')` returns is non-empty and made of word characters |
| Tokens.WordsAreMaximalRuns | database_light.py:41 | a string is a found word exactly when it is a maximal run of word characters of the text |
| Tokens.WordsSound | database_light.py:41 | every found word is a maximal run of word characters |
| Tokens.WordsComplete | database_light.py:41 | every maximal run of word characters is found |
| Tokens.WordsConcat | database_light.py:41 | a non-word character separates words: the words of `a + c + b` are those of `a` followed by those of `b` |
| Tokens.TokenSet | database_light.py:41-42 | every token is a non-empty, lower-case run of word characters |
| Tokens.TokenSetIsRuns | database_light.py:41-42 | a string is a token exactly when it is a maximal run of word characters of the lower-cased text |
| Tokens.NoWordNoToken | database_light.py:41-44 | a text without a word character, the empty text included, has no token |
| Tokens.LowerIdempotent | database_light.py:41 | lower-casing twice is lower-casing once |
| Tokens.TokenSetIgnoresCase | database_light.py:41-42 | the token set of the lower-cased text is that of the text |
| Tokens.TokenSetConcat | database_light.py:41-42 | the tokens of `a + c + b`, with `c` a non-word character, are the union of the tokens of `a` and of `b` |
| Tokens.TokenSetOfWord | database_light.py:41-42 | a lone lower-case word is its own single token |
| Scoring.Score | database_light.py:39-49 | the score is a fraction in [0, 1] |
| Scoring.ScoreSpec | database_light.py:39-49 | the score is 0 for a query without tokens; it is positive exactly when query and text share a token; it is 1 exactly when the query has tokens and every one of them occurs in the text |
| Scoring.ScoreIgnoresCase | database_light.py:41-42 | lower-casing the query or the text does not change the score |
| Scoring.ScoreIgnoresRepetition | database_light.py:41 | repeating the query's words does not change the score, since only the token set counts |
| Scoring.ScoreExample | database_light.py:39-49 | "hello world" against "hello there" scores 0.5 |
| Scoring.TwoWords | database_light.py:41-42 | two lower-case words separated by a space give exactly those two tokens |
| Chunking.ChunkText | database_light.py:30-34 | a kept segment gives a valid chunk of 1 to 200 characters that does not start with whitespace; it is a prefix of the stripped segment, equal to it when that has at most 200 characters and exactly 200 characters long otherwise |
| Chunking.SegmentChunks | database.py:50-61 | the segment loop from segment `i` on yields at most one chunk per remaining segment, each with the file's stem as source; `SegmentChunksSound`, `SegmentChunksOrdered` and `SegmentChunksComplete` characterise it |
| Chunking.FileChunks | database.py:48-61 | a file yields at most one chunk per segment of its split, each with the file's stem as source; `FileChunksSpec` characterises it |
| Chunking.CorpusChunks | database_light.py:23-35 | every chunk of the directory has the stem of one of its files as source; `CorpusChunksOne` and `CorpusChunksAppend` pin it down to the files' chunks in file order |
| Chunking.CorpusChunksOne | database_light.py:23-35 | a directory of one file yields exactly that file's chunks |
| Chunking.SegmentChunksSound | database.py:50-61 | every chunk of a file comes from a non-blank segment and carries that segment's index in the raw split |
| Chunking.SegmentChunksOrdered | database.py:50-59 | the segment indices of a file's chunks strictly increase |
| Chunking.SegmentChunksComplete | database.py:50-52 | every non-blank segment yields a chunk |
| Chunking.FileChunksSpec | database.py:48-61 | a file's chunks are in segment order, one per non-blank segment and none for blank ones |
| Chunking.CorpusChunksAppend | database_light.py:23-35 | the chunks of a list of files are those of the earlier files followed by those of the later ones |
| Chunking.CorpusChunksProvenance | database_light.py:23-35 | every loaded chunk is a valid chunk text and comes from a segment of one of the files |
| Chunking.FileChunksEmpty | database_light.py:28-31 | a file yields no chunk exactly when all its segments are blank |
| Chunking.CorpusChunksEmpty | database.py:63 | the directory yields no chunk exactly when every segment of every file is blank |
| Chunking.ThreeParagraphs | database_light.py:28-35 | content `"A\n\nB\n\nC"` yields exactly the chunks "A", "B" and "C", from segments 0, 1 and 2 |
| Chunking.IndexGap | database.py:48-61 | content `"A\n\n\n\nB"` yields exactly the chunks "A" and "B", from segments 0 and 2: the blank middle segment keeps its index |
| Ranking.Insert | database_light.py:60 | inserting a position into a ranked list keeps it ranked and adds exactly that position |
| Ranking.Rank | database_light.py:60 | the sort orders positions `0..k-1`, each exactly once, by descending score, with ties in corpus order |
| Ranking.Scores | database_light.py:57 | the `scored` list: one score per chunk, entry `k` being the score of chunk `k` |
| Ranking.RankUnique | database_light.py:60 | two such orderings of the same positions are equal, so the stable descending sort has only one possible result |
| Ranking.SliceTo | database_light.py:62 | `xs[:n]` is a prefix of length `min(n, len)` for `n >= 0`, and drops the last `-n` elements for negative `n` |
| Ranking.Limit | database_light.py:62 | the number of elements `[:n]` asks for: `n` itself when `n >= 0`, otherwise fewer than the length (or 0) |
| Ranking.SliceToLimit | database_light.py:62 | `xs[:n]` is the prefix of length `Limit(n, len)`, or all of `xs` when that is longer, for every integer `n` |
| Ranking.KeepPositive | database_light.py:62 | the filter keeps only positions with a positive score, all taken from its input, and is never longer than its input |
| Ranking.KeepPositiveComplete | database_light.py:62 | every input position with a positive score is kept |
| Ranking.KeepPositiveConcat | database_light.py:62 | filtering a concatenation is concatenating the filtered parts, so the filter keeps input order and multiplicity |
| Ranking.KeepPositiveOne | database_light.py:62 | a single position is kept exactly when its score is positive |
| Ranking.KeepPositivePrefix | database_light.py:62 | on a ranked list the kept positions form a prefix, and everything after it scores 0 or less |
| Ranking.NoPositive | database_light.py:62 | when nothing scores above 0, nothing is kept |
| Ranking.TopPositions | database_light.py:51-62 | for the bound `m = Limit(n, len)`: at most `m` positions come back, ranked with ties in corpus order, all with a positive score; every position left out ranks below every one returned; fewer than `m` come back only when no other position scores above 0 |
| Ranking.TopUnique | database_light.py:60-62 | two lists meeting that description for the same bound are equal, so it determines the result of the sort, slice and filter |
| Ranking.Retrieve | database_light.py:51-62 | the result is the chunks at the top positions of the corpus's scores for the bound `Limit(n, len)`, which `TopUnique` makes unique, equal scores and repeated texts included; hence at most that many chunks, each a corpus chunk with a positive score, scores not increasing, no chunk left out scoring above a returned one, and fewer than the bound only when every chunk with a positive score is returned |
| Ranking.TieKeepsCorpusOrder | database_light.py:60-62 | of two chunks with the same positive score, a single requested result is the earlier one |
| Ranking.RepeatedChunk | database_light.py:57-62 | a matching text that occurs twice in the corpus comes back twice when two results are requested |
| Ranking.NoOverlapRetrievesNothing | database_light.py:57-62 | a query sharing no token with any chunk retrieves nothing, including from an empty corpus |
| Ranking.SingleChunk | database_light.py:57-62 | from a one-chunk corpus with `n >= 1`, the chunk comes back exactly when its score is positive |
| Ranking.NetiquetteExample | database_light.py:51-62 | "apa itu netiquette" against the one-chunk corpus of the company description returns that chunk |
| LightStore.Load | database_light.py:9-37 | a filled list is kept without force; a missing directory keeps the list; otherwise the list becomes exactly the texts of the directory's chunks, in file then segment order, one per chunk |
| LightStore.CollectChunks | database_light.py:22-35 | the file loop builds exactly the texts of the directory's chunks, in order |
| LightStore.AppendFileChunks | database_light.py:28-35 | the segment loop appends exactly the texts of the file's chunks |
| LightStore.LoadIdempotent | database_light.py:13-15 | a further load without force changes nothing, whatever the first load did |
| LightStore.ForcedLoadReplaces | database_light.py:22-35 | a forced load of a present directory gives the same list whatever was loaded before: the texts of the current chunks |
| LightStore.LoadKeepsChunksValid | database_light.py:28-35 | if every stored text is a valid chunk text, that stays true after a load |
| LightStore.BlankDirectoryLoadsNothing | database_light.py:22-37 | a directory of blank files loads a count of 0, and a further load without force keeps it empty |
| ChromaStore.ChunkId | database.py:61 | an id is the stem, then `_`, then the digits of the index |
| ChromaStore.ParseChunkIdRoundTrip | database.py:61 | splitting an id at its last underscore gives back its stem and index |
| ChromaStore.ChunkIdInjective | database.py:61 | two ids are equal exactly when their stems and indices are |
| ChromaStore.BuildBatch | database.py:39-61 | `documents`, `metadatas` and `ids` have equal length, one entry per chunk in load order; entry `k` of each describes chunk `k`; zipped, they are the records the collection receives |
| ChromaStore.Records | database.py:63-68 | the batch `collection.add` receives: one record per chunk of the directory, in load order, record `k` holding chunk `k`'s id, text and metadata |
| ChromaStore.AppendFileBatch | database.py:48-61 | the segment loop appends, to each of the three lists, exactly the entries for the file's chunks |
| ChromaStore.Delete | database.py:33 | after deleting, a record remains exactly when it was there and its id is not listed |
| ChromaStore.AllIds | database.py:31 | `collection.get()['ids']` lists the id of every record, in order |
| ChromaStore.DeleteAll | database.py:31-33 | deleting all ids of a collection empties it |
| ChromaStore.Load | database.py:19-68 | a missing directory keeps the collection; a filled collection is kept without force; otherwise the collection ends up holding exactly the new records, with nothing left from before |
| ChromaStore.CorpusKeysDistinct | database.py:57-61 | with distinct file stems, no two chunks share both source and `chunk_id` |
| ChromaStore.IdsUnique | database.py:61 | with distinct file stems, the ids of one load are pairwise distinct |
| ChromaStore.SameStemSameIndexSameId | database.py:58-61 | chunks of two files with the same stem, such as `.txt` and `.txt.txt`, taken from the same segment index get the same id |
| ChromaStore.SharedStemSharesId | database.py:58-61 | two same-stem files whose content is one non-space character each give a batch of two records with the same id |
| ChromaStore.ChunkIdsIncrease | database.py:50-59 | within a file, the `chunk_id`s strictly increase |
| ChromaStore.RecordsProvenance | database.py:50-61 | every record holds a valid chunk text, the id matching its metadata, and comes from the segment its metadata names |
| ChromaStore.VariantsAgree | database.py:19-69 | after any load from the same state and directory, the collection's documents are the in-memory variant's list |
| ChromaStore.SkipKeepsCount | database.py:28-37 | a load without force on a filled collection, or with the directory missing, leaves the count unchanged |
| ChromaStore.BlankDirectoryAddsNothing | database.py:63-69 | when no file yields a chunk nothing is added: a forced reload leaves the collection empty, and an unforced one keeps it as it was |
| ChromaStore.GapIds | database.py:48-61 | content `"A\n\n\n\nB"` in file `doc` gives the ids `doc_0` and `doc_2` |

## Notes on the code

- **`n_results`.** `query_knowledge_base` never checks it
  (`database_light.py:51-62`). It slices with `[:n_results]`, so a
  negative value drops positions from the end of the ranking before the
  positive filter. `Ranking.Limit` and `Ranking.SliceTo` model that slice,
  and `Ranking.TopPositions` and `Ranking.Retrieve` state their result for
  every integer `n`.
- **Default `n_results`.** It is 1 in the in-memory variant
  (`database_light.py:51`) and 3 in the ChromaDB variant (`database.py:71`).
- **Order of clearing and reading.** In `database.py` the forced delete
  (lines 29-34) runs before any file is opened (lines 43-45). A read that
  fails part-way therefore leaves the collection cleared. Read failures are
  not modelled (see below).

## Left out

- ChromaDB client, collection creation and `query_knowledge_base` of
  `database.py` (lines 7-17 and 71-80). The embedding function and the
  similarity search are a foreign library whose model and distance cannot
  be seen.
- Filesystem access:
  - The directory is given as `Missing` or a sequence of files in listing
    order.
  - The `glob("*.txt")` order, the UTF-8 decoding and the existence test
    are not modelled.
- Read failures part-way through a load. An exception from `open` or
  `read` is outside the model.
- The lazy `load_knowledge_base()` call inside the in-memory
  `query_knowledge_base` (`database_light.py:53-54`). The retrieval takes
  the corpus as a parameter. Running `LightStore.Load` first gives the same
  effect.
- Unicode beyond ASCII in `\w` and `str.lower()`:
  - Only ASCII letters, digits and `_` are word characters.
  - Only `A`–`Z` are lower-cased.
  - `strip()` does use Python's full `str.isspace()` set.
- Floating point. Scores are exact rationals, so no rounding is modelled.
- Timsort itself. The sort is modelled as an insertion sort of corpus
  positions. `Ranking.RankUnique` shows that any stable descending sort
  gives the same order.
- Duplicate ids passed to `collection.add`. The library's reaction is not
  modelled: `ChromaStore.Load` appends every record, repeated ids
  included. `ChromaStore.IdsUnique` shows that duplicates cannot arise
  from files with distinct stems. The `*.txt` files of one directory
  have distinct stems except when both `.txt` and `.txt.txt` exist:
  `pathlib` gives both the stem `.txt`. `ChromaStore.SameStemSameIndexSameId`
  shows that their chunks from the same segment index then share an id.
- ChromaStore.Delete: states which records remain, not that they keep
  their relative order.
- `get_documents_count` in both variants is the length of the list or
  collection (`DocumentsCount`). It has no contract of its own. The lemmas
  about skipping and blank directories state what happens to it.
- Printed progress messages, and all of `app.py`, `app_vercel.py`,
  `api_client.py`, `config.py`, `utils.py` and `frontend/script.js`. These
  are HTTP routing, the completion API call, configuration, file helpers
  and the browser UI.

=== FILE: chroma_store.dfy ===
/** The persistent knowledge base (`database.py`): a collection of records,
    each a chunk text with its metadata and a string id, that
    `load_knowledge_base` fills from the knowledge directory. The collection
    is passed in and returned as a sequence of records; its embedding index
    is not modelled. */
module ChromaStore {
  import opened Text
  import opened Chunking
  import LightStore

  datatype Option<T> = None | Some(value: T)

  /** The metadata stored with a chunk: the file stem and the index of the
      segment in the raw split. */
  datatype Metadata = Metadata(source: string, chunkId: nat)

  /** One entry of the collection. */
  datatype Record = Record(id: string, document: string, metadata: Metadata)

  // ------------------------------------------------------------------ ids

  /** The id of chunk `i` of file `stem`: the stem, an underscore and the
      decimal digits of `i`. */
  function ChunkId(stem: string, i: nat): (id: string)
    ensures |id| == |stem| + 1 + |DecimalString(i)|
    ensures id[..|stem|] == stem && id[|stem|] == '_'
  {
    stem + "_" + DecimalString(i)
  }

  /** The number of decimal digits `x` ends with. */
  function TrailingDigits(x: string): (n: nat)
    ensures n <= |x| && AllDigits(x[|x| - n..])
    ensures n == |x| || !IsDigit(x[|x| - n - 1])
    decreases |x|
  {
    if x == [] || !IsDigit(x[|x| - 1]) then 0
    else
      var n := TrailingDigits(x[..|x| - 1]);
      assert x[|x| - (n + 1)..] == x[..|x| - 1][|x| - 1 - n..] + [x[|x| - 1]];
      n + 1
  }

  /** Reads an id back into its stem and chunk index: the digits after the
      last underscore are the index, everything before it the stem. */
  function ParseChunkId(x: string): (r: Option<(string, nat)>)
    ensures r.Some? ==> |r.value.0| < |x| && x[|r.value.0|] == '_'
  {
    var n := TrailingDigits(x);
    if n == 0 || n == |x| || x[|x| - n - 1] != '_' then None
    else Some((x[..|x| - n - 1], DecimalValue(x[|x| - n..])))
  }

  /** The digits of an id are exactly those of its index. */
  lemma {:induction false} TrailingDigitsOfId(p: string, d: string)
    requires AllDigits(d)
    ensures TrailingDigits(p + "_" + d) == |d|
    decreases |d|
  {
    var x := p + "_" + d;
    if d != [] {
      assert x[..|x| - 1] == p + "_" + d[..|d| - 1];
      TrailingDigitsOfId(p, d[..|d| - 1]);
    } else {
      assert x[|x| - 1] == '_';
    }
  }

  /** Reading an id gives back the stem and the index it was made from. */
  lemma {:induction false} ParseChunkIdRoundTrip(stem: string, i: nat)
    ensures ParseChunkId(ChunkId(stem, i)) == Some((stem, i))
  {
    var x, d := ChunkId(stem, i), DecimalString(i);
    TrailingDigitsOfId(stem, d);
    assert x[|x| - |d|..] == d;
    assert x[..|x| - |d| - 1] == stem;
    DecimalRoundTrip(i);
  }

  /** Different chunks get different ids: the id determines the stem and
      the index. */
  lemma {:induction false} ChunkIdInjective(s1: string, i1: nat, s2: string, i2: nat)
    ensures ChunkId(s1, i1) == ChunkId(s2, i2) <==> s1 == s2 && i1 == i2
  {
    ParseChunkIdRoundTrip(s1, i1);
    ParseChunkIdRoundTrip(s2, i2);
  }

  // ------------------------------------------------------------- the batch

  function MetadataOf(c: Chunk): Metadata {
    Metadata(c.source, c.index)
  }

  function IdOf(c: Chunk): string {
    ChunkId(c.source, c.index)
  }

  /** The metadata list built for a sequence of chunks. */
  function Metadatas(cs: seq<Chunk>): (ms: seq<Metadata>)
    ensures |ms| == |cs| && forall k :: 0 <= k < |cs| ==> ms[k] == MetadataOf(cs[k])
  {
    seq(|cs|, k requires 0 <= k < |cs| => MetadataOf(cs[k]))
  }

  /** The id list built for a sequence of chunks. */
  function Ids(cs: seq<Chunk>): (ids: seq<string>)
    ensures |ids| == |cs| && forall k :: 0 <= k < |cs| ==> ids[k] == IdOf(cs[k])
  {
    seq(|cs|, k requires 0 <= k < |cs| => IdOf(cs[k]))
  }

  /** The records `collection.add` stores for three aligned lists. */
  function Zip(documents: seq<string>, metadatas: seq<Metadata>, ids: seq<string>): (rs: seq<Record>)
    requires |documents| == |metadatas| == |ids|
    ensures |rs| == |ids|
    ensures forall k :: 0 <= k < |rs| ==>
      rs[k].id == ids[k] && rs[k].document == documents[k] && rs[k].metadata == metadatas[k]
  {
    seq(|ids|, k requires 0 <= k < |ids| => Record(ids[k], documents[k], metadatas[k]))
  }

  /** The records for the chunks of a directory's files, in load order. */
  function Records(files: seq<SourceFile>): (rs: seq<Record>)
    ensures |rs| == |CorpusChunks(files)|
    ensures forall k :: 0 <= k < |rs| ==>
      rs[k] == Record(IdOf(CorpusChunks(files)[k]), CorpusChunks(files)[k].text, MetadataOf(CorpusChunks(files)[k]))
  {
    var cs := CorpusChunks(files);
    Zip(Texts(cs), Metadatas(cs), Ids(cs))
  }

  /** The documents of a collection, in order. */
  function Documents(coll: seq<Record>): (ds: seq<string>)
    ensures |ds| == |coll| && forall k :: 0 <= k < |coll| ==> ds[k] == coll[k].document
  {
    seq(|coll|, k requires 0 <= k < |coll| => coll[k].document)
  }

  /** What the file loop builds: three lists, aligned index by index, one
      entry per chunk of the directory in load order. */
  method BuildBatch(files: seq<SourceFile>) returns (documents: seq<string>, metadatas: seq<Metadata>, ids: seq<string>)
    ensures |documents| == |metadatas| == |ids| == |CorpusChunks(files)|
    ensures forall k :: 0 <= k < |ids| ==>
      var c := CorpusChunks(files)[k];
      documents[k] == c.text && metadatas[k] == Metadata(c.source, c.index) && ids[k] == ChunkId(c.source, c.index)
    ensures Zip(documents, metadatas, ids) == Records(files)
  {
    documents, metadatas, ids := [], [], [];
    ghost var done: seq<Chunk> := [];
    var i := 0;
    assert files[0..] == files;
    while i < |files|
      invariant i <= |files|
      invariant done + CorpusChunks(files[i..]) == CorpusChunks(files)
      invariant documents == Texts(done) && metadatas == Metadatas(done) && ids == Ids(done)
    {
      ghost var here := FileChunks(files[i]);
      documents, metadatas, ids := AppendFileBatch(documents, metadatas, ids, files[i]);
      BatchStep(files, i, done);
      BatchAppend(done, here);
      done := done + here;
      i := i + 1;
    }
    assert files[i..] == [];
  }

  /** One turn of the file loop keeps the chunks seen so far a prefix of
      the corpus. */
  lemma {:induction false} BatchStep(files: seq<SourceFile>, i: nat, done: seq<Chunk>)
    requires i < |files|
    requires done + CorpusChunks(files[i..]) == CorpusChunks(files)
    ensures (done + FileChunks(files[i])) + CorpusChunks(files[i + 1..]) == CorpusChunks(files)
  {
    CorpusSuffix(files, i);
    MovePrefix(done, FileChunks(files[i]), CorpusChunks(files[i + 1..]), CorpusChunks(files));
  }

  /** The three lists of a concatenation are the concatenated lists. */
  lemma {:induction false} BatchAppend(a: seq<Chunk>, b: seq<Chunk>)
    ensures Texts(a + b) == Texts(a) + Texts(b)
    ensures Metadatas(a + b) == Metadatas(a) + Metadatas(b)
    ensures Ids(a + b) == Ids(a) + Ids(b)
  {
  }

  /** The segment loop for one file: each non-blank segment `i`, stripped
      and cut to 200 characters, is appended to `documents`, with metadata
      `{source: stem, chunk_id: i}` and id `stem_i`. */
  method AppendFileBatch(documents: seq<string>, metadatas: seq<Metadata>, ids: seq<string>, f: SourceFile)
    returns (documents': seq<string>, metadatas': seq<Metadata>, ids': seq<string>)
    ensures documents' == documents + Texts(FileChunks(f))
    ensures metadatas' == metadatas + Metadatas(FileChunks(f))
    ensures ids' == ids + Ids(FileChunks(f))
  {
    // `hide` keeps the definitions named out of the rest of this proof,
    // which needs only their contracts; it keeps the proof small
    hide Split;
    var segs := Split(f.content);
    documents', metadatas', ids' := documents, metadatas, ids;
    ghost var done: seq<Chunk> := [];
    var i := 0;
    while i < |segs|
      invariant i <= |segs|
      invariant done + SegmentChunks(f.stem, segs, i) == FileChunks(f)
      invariant documents' == documents + Texts(done)
      invariant metadatas' == metadatas + Metadatas(done)
      invariant ids' == ids + Ids(done)
    {
      var chunk := Strip(segs[i]);
      SegmentChunksStep(f.stem, segs, i);
      if chunk != [] {
        if |chunk| > MaxChunkLength {
          chunk := chunk[..MaxChunkLength];
        }
        documents' := documents' + [chunk];
        metadatas' := metadatas' + [Metadata(f.stem, i)];
        ids' := ids' + [f.stem + "_" + DecimalString(i)];
        assert chunk == ChunkText(segs[i]);
        SegmentStep(f, segs, i, done, documents, metadatas, ids);
        done := done + [Chunk(chunk, f.stem, i)];
      }
      i := i + 1;
    }
    assert done == FileChunks(f) by {
      assert SegmentChunks(f.stem, segs, i) == [];
    }
  }

  /** One turn of the segment loop over a non-blank segment appends the
      entries of its chunk. */
  lemma {:induction false} SegmentStep(f: SourceFile, segs: seq<string>, i: nat, done: seq<Chunk>,
                    documents: seq<string>, metadatas: seq<Metadata>, ids: seq<string>)
    requires segs == Split(f.content) && i < |segs| && Strip(segs[i]) != []
    requires done + SegmentChunks(f.stem, segs, i) == FileChunks(f)
    ensures var c := Chunk(ChunkText(segs[i]), f.stem, i);
      && (done + [c]) + SegmentChunks(f.stem, segs, i + 1) == FileChunks(f)
      && documents + Texts(done + [c]) == documents + Texts(done) + [c.text]
      && metadatas + Metadatas(done + [c]) == metadatas + Metadatas(done) + [Metadata(f.stem, i)]
      && ids + Ids(done + [c]) == ids + Ids(done) + [f.stem + "_" + DecimalString(i)]
  {
    hide Split, Strip, ChunkText;
    var c := Chunk(ChunkText(segs[i]), f.stem, i);
    SegmentChunksStep(f.stem, segs, i);
    MovePrefix(done, [c], SegmentChunks(f.stem, segs, i + 1), FileChunks(f));
    BatchAppend(done, [c]);
  }

  // ------------------------------------------------------------ collection

  /** `collection.count()`. */
  function DocumentsCount(coll: seq<Record>): nat {
    |coll|
  }

  /** `collection.get()['ids']`: the ids of all records, in order. */
  function AllIds(coll: seq<Record>): (ids: seq<string>)
    ensures |ids| == |coll| && forall k :: 0 <= k < |coll| ==> ids[k] == coll[k].id
  {
    seq(|coll|, k requires 0 <= k < |coll| => coll[k].id)
  }

  /** `collection.delete(ids=ids)`: drops the records whose id is listed,
      keeping the others in order. */
  function Delete(coll: seq<Record>, ids: seq<string>): (r: seq<Record>)
    ensures forall x :: x in r <==> x in coll && x.id !in ids
  {
    if coll == [] then []
    else (if coll[0].id in ids then [] else [coll[0]]) + Delete(coll[1..], ids)
  }

  /** Deleting every id of a collection empties it. */
  lemma {:induction false} DeleteAll(coll: seq<Record>)
    ensures Delete(coll, AllIds(coll)) == []
  {
    DeleteCovered(coll, AllIds(coll));
  }

  /** Deleting a list of ids that covers every record empties the
      collection. */
  lemma {:induction false} DeleteCovered(coll: seq<Record>, ids: seq<string>)
    requires forall k :: 0 <= k < |coll| ==> coll[k].id in ids
    ensures Delete(coll, ids) == []
  {
    if coll != [] {
      assert forall k :: 0 <= k < |coll| - 1 ==> coll[1..][k] == coll[k + 1];
      DeleteCovered(coll[1..], ids);
    }
  }

  /** `load_knowledge_base(force_reload)` on the collection `coll` with the
      directory `dir`. A missing directory is checked first; a filled
      collection is kept unless `force`, and otherwise emptied by deleting
      all its ids; then the batch is added when it is not empty. */
  function Load(coll: seq<Record>, dir: Directory, force: bool): (r: seq<Record>)
    ensures dir.Missing? ==> r == coll
    ensures |coll| > 0 && !force ==> r == coll
    ensures dir.Present? && (|coll| == 0 || force) ==> r == Records(dir.files)
  {
    if dir.Missing? then coll
    else if |coll| > 0 && !force then coll
    else
      var existing := AllIds(coll);
      DeleteAll(coll);
      var cleared := if |coll| > 0 && existing != [] then Delete(coll, existing) else coll;
      var batch := Records(dir.files);
      if batch != [] then cleared + batch else cleared
  }

  // ---------------------------------------------------------- properties

  /** Chunks of two files with the same stem, taken from the same segment
      index, get the same id. This happens for `.txt` and `.txt.txt`, whose
      stems are both `.txt`. */
  lemma {:induction false} SameStemSameIndexSameId(f1: SourceFile, f2: SourceFile, c1: Chunk, c2: Chunk)
    requires f1.stem == f2.stem && ChunkOf(c1, f1) && ChunkOf(c2, f2) && c1.index == c2.index
    ensures IdOf(c1) == IdOf(c2)
  {
  }

  /** Worked example: two same-stem files whose content is one non-space
      character each give a batch of two records with the same id. */
  lemma {:induction false} SharedStemSharesId(f1: SourceFile, f2: SourceFile)
    requires f1.stem == f2.stem
    requires |f1.content| == 1 && !IsSpace(f1.content[0])
    requires |f2.content| == 1 && !IsSpace(f2.content[0])
    ensures |Records([f1, f2])| == 2 && Records([f1, f2])[0].id == Records([f1, f2])[1].id
  {
    OneLetterFile(f1);
    OneLetterFile(f2);
    assert [f1, f2][1..] == [f2] && [f2][1..] == [];
    assert CorpusChunks([f2]) == FileChunks(f2) + CorpusChunks([]);
    assert CorpusChunks([f1, f2]) == FileChunks(f1) + CorpusChunks([f2]);
  }

  /** Stems of the files are pairwise distinct. This holds for the `*.txt`
      files of one directory with one exception: the stem of `.txt` is
      `.txt`, and so is the stem of `.txt.txt` (see `SameStemSameIndexSameId`). */
  predicate DistinctStems(files: seq<SourceFile>) {
    forall a, b :: 0 <= a < b < |files| ==> files[a].stem != files[b].stem
  }

  /** No two chunks share both file and segment index. */
  predicate DistinctKeys(cs: seq<Chunk>) {
    forall a, b :: 0 <= a < b < |cs| ==> cs[a].source != cs[b].source || cs[a].index != cs[b].index
  }

  /** Chunks of distinct files, and distinct segments of one file, are
      distinct. */
  lemma {:induction false} CorpusKeysDistinct(files: seq<SourceFile>)
    requires DistinctStems(files)
    ensures DistinctKeys(CorpusChunks(files))
  {
    if files != [] {
      var first, rest := FileChunks(files[0]), CorpusChunks(files[1..]);
      SegmentChunksSound(files[0].stem, Split(files[0].content), 0);
      SegmentChunksOrdered(files[0].stem, Split(files[0].content), 0);
      assert DistinctStems(files[1..]) by {
        forall a, b | 0 <= a < b < |files| - 1 ensures files[1..][a].stem != files[1..][b].stem {
          assert files[1..][a] == files[a + 1] && files[1..][b] == files[b + 1];
        }
      }
      CorpusKeysDistinct(files[1..]);
      CorpusChunksProvenance(files[1..]);
      forall c | c in rest ensures c.source != files[0].stem {
        var f :| f in files[1..] && ChunkOf(c, f);
        var m :| 0 <= m < |files| - 1 && files[1..][m] == f;
        assert files[m + 1] == f;
      }
      var cs := first + rest;
      forall a, b | 0 <= a < b < |cs| ensures cs[a].source != cs[b].source || cs[a].index != cs[b].index {
        if b < |first| {
          assert cs[a] == first[a] && cs[b] == first[b];
        } else if a >= |first| {
          assert cs[a] == rest[a - |first|] && cs[b] == rest[b - |first|];
        } else {
          assert FromSegment(first[a], files[0].stem, Split(files[0].content));
          assert cs[b] == rest[b - |first|] && cs[b] in rest;
        }
      }
    }
  }

  /** The ids of one load are pairwise distinct when the file stems are, so
      `collection.add` never sees a repeated id. */
  lemma {:induction false} IdsUnique(files: seq<SourceFile>)
    requires DistinctStems(files)
    ensures forall a, b :: 0 <= a < b < |Records(files)| ==> Records(files)[a].id != Records(files)[b].id
  {
    var cs := CorpusChunks(files);
    CorpusKeysDistinct(files);
    forall a, b | 0 <= a < b < |cs| ensures IdOf(cs[a]) != IdOf(cs[b]) {
      ChunkIdInjective(cs[a].source, cs[a].index, cs[b].source, cs[b].index);
    }
  }

  /** Within one file the chunk indices, and so the metadata `chunk_id`s,
      strictly increase. */
  lemma {:induction false} ChunkIdsIncrease(f: SourceFile)
    ensures forall a, b :: 0 <= a < b < |FileChunks(f)| ==>
      Metadatas(FileChunks(f))[a].chunkId < Metadatas(FileChunks(f))[b].chunkId
  {
    FileChunksSpec(f);
  }

  /** Every record of a load is a valid chunk text of the file its metadata
      names, at the segment its metadata names, and carries the matching id. */
  lemma {:induction false} RecordsProvenance(files: seq<SourceFile>)
    ensures forall r :: r in Records(files) ==>
      && ValidChunkText(r.document)
      && r.id == ChunkId(r.metadata.source, r.metadata.chunkId)
      && exists f :: f in files && ChunkOf(Chunk(r.document, r.metadata.source, r.metadata.chunkId), f)
  {
    var cs := CorpusChunks(files);
    CorpusChunksProvenance(files);
    forall r | r in Records(files)
      ensures && ValidChunkText(r.document)
              && r.id == ChunkId(r.metadata.source, r.metadata.chunkId)
              && exists f :: f in files && ChunkOf(Chunk(r.document, r.metadata.source, r.metadata.chunkId), f)
    {
      var k :| 0 <= k < |Records(files)| && Records(files)[k] == r;
      assert Chunk(r.document, r.metadata.source, r.metadata.chunkId) == cs[k];
      assert cs[k] in cs;
    }
  }

  /** Both variants hold the same documents after any load from the same
      state: the persistent loader and the in-memory loader agree. */
  lemma {:induction false} VariantsAgree(coll: seq<Record>, dir: Directory, force: bool)
    ensures Documents(Load(coll, dir, force)) == LightStore.Load(Documents(coll), dir, force)
  {
    if dir.Present? && (|coll| == 0 || force) {
      var cs := CorpusChunks(dir.files);
      assert Documents(Records(dir.files)) == Texts(cs);
      LightStore.ForcedLoadReplaces(Documents(coll), [], dir.files);
    }
  }

  /** A load without force on a filled collection leaves the count as it is,
      and so does a load when the directory is missing. */
  lemma {:induction false} SkipKeepsCount(coll: seq<Record>, dir: Directory, force: bool)
    requires (|coll| > 0 && !force) || dir.Missing?
    ensures DocumentsCount(Load(coll, dir, force)) == DocumentsCount(coll)
  {
  }

  /** When no file yields a chunk nothing is added: a forced reload then
      leaves the collection empty, and an unforced load of an empty one
      leaves it empty. */
  lemma {:induction false} BlankDirectoryAddsNothing(coll: seq<Record>, files: seq<SourceFile>, force: bool)
    requires forall f, seg :: f in files && seg in Split(f.content) ==> AllSpace(seg)
    ensures Load(coll, Present(files), force) == if |coll| > 0 && !force then coll else []
  {
    CorpusChunksEmpty(files);
  }

  /** Worked example: "A\n\n\n\nB" in file `doc` yields ids `doc_0` and
      `doc_2`; the blank segment leaves a gap. */
  lemma {:induction false} GapIds(f: SourceFile)
    requires f.stem == "doc" && f.content == "A\n\n\n\nB"
    ensures Ids(FileChunks(f)) == ["doc_0", "doc_2"]
  {
    IndexGap(f);
    var cs := FileChunks(f);
    assert DecimalString(0) == "0" && DecimalString(2) == "2";
    assert IdOf(cs[0]) == "doc_0" && IdOf(cs[1]) == "doc_2";
  }
}

=== FILE: chunking.dfy ===
/** How the knowledge-base directory is cut into chunks: each file's content
    is split at blank lines, every segment is stripped, blank segments are
    dropped and the rest are cut to 200 characters. Each chunk remembers the
    file it came from and the position of its segment in the raw split. */
module Chunking {
  import opened Text

  /** One `*.txt` file of the knowledge directory: its name without the
      extension, and its content as read. */
  datatype SourceFile = SourceFile(stem: string, content: string)

  /** The knowledge directory, or its absence. The files are in the order
      the directory listing yields them. */
  datatype Directory = Missing | Present(files: seq<SourceFile>)

  /** A chunk with its provenance: the file stem and the index of its
      segment in the list `content.split('\n\n')`. */
  datatype Chunk = Chunk(text: string, source: string, index: nat)

  /** What a stored chunk looks like: non-empty, at most 200 characters,
      and not starting with whitespace. (It may end with whitespace when
      the cut at 200 characters falls just after a space.) */
  predicate ValidChunkText(t: string) {
    0 < |t| <= MaxChunkLength && !IsSpace(t[0])
  }

  /** The chunk text a raw segment yields when it is not blank. */
  function ChunkText(segment: string): (t: string)
    requires Strip(segment) != []
    ensures ValidChunkText(t)
    ensures |t| <= |Strip(segment)| && t == Strip(segment)[..|t|]
    ensures |Strip(segment)| <= MaxChunkLength ==> t == Strip(segment)
    ensures |Strip(segment)| > MaxChunkLength ==> |t| == MaxChunkLength
  {
    Truncate(Strip(segment))
  }

  /** `c` is the chunk of the non-blank segment `segs[c.index]` of file `stem`. */
  ghost predicate FromSegment(c: Chunk, stem: string, segs: seq<string>) {
    && c.source == stem
    && c.index < |segs|
    && Strip(segs[c.index]) != []
    && c.text == ChunkText(segs[c.index])
  }

  /** The chunks of the segments `segs[i..]` of file `stem`, as the loop
      `for i, chunk in enumerate(chunks)` produces them from position `i`
      on: one chunk per non-blank segment, in segment order. */
  function SegmentChunks(stem: string, segs: seq<string>, i: nat): (cs: seq<Chunk>)
    requires i <= |segs|
    ensures |cs| <= |segs| - i
    ensures forall k :: 0 <= k < |cs| ==> cs[k].source == stem
    decreases |segs| - i
  {
    if i == |segs| then []
    else
      var rest := SegmentChunks(stem, segs, i + 1);
      if Strip(segs[i]) == [] then rest
      else [Chunk(ChunkText(segs[i]), stem, i)] + rest
  }

  /** Every chunk comes from a non-blank segment at or after `i`. */
  lemma {:induction false} SegmentChunksSound(stem: string, segs: seq<string>, i: nat)
    requires i <= |segs|
    ensures forall k :: 0 <= k < |SegmentChunks(stem, segs, i)| ==>
      i <= SegmentChunks(stem, segs, i)[k].index && FromSegment(SegmentChunks(stem, segs, i)[k], stem, segs)
    decreases |segs| - i
  {
    // `hide` keeps the definitions named out of the rest of this proof,
    // which needs only their contracts; it keeps the proof small
    hide Strip, ChunkText;
    if i < |segs| {
      SegmentChunksSound(stem, segs, i + 1);
      SegmentChunksStep(stem, segs, i);
      if Strip(segs[i]) != [] {
        ConsChunks(Chunk(ChunkText(segs[i]), stem, i), SegmentChunks(stem, segs, i + 1), stem, segs);
      }
    }
  }

  /** The chunks are in segment order: their indices strictly increase. */
  lemma {:induction false} SegmentChunksOrdered(stem: string, segs: seq<string>, i: nat)
    requires i <= |segs|
    ensures forall a, b :: 0 <= a < b < |SegmentChunks(stem, segs, i)| ==>
      SegmentChunks(stem, segs, i)[a].index < SegmentChunks(stem, segs, i)[b].index
    decreases |segs| - i
  {
    hide Strip, ChunkText;
    if i < |segs| {
      SegmentChunksOrdered(stem, segs, i + 1);
      SegmentChunksSound(stem, segs, i + 1);
      SegmentChunksStep(stem, segs, i);
      if Strip(segs[i]) != [] {
        ConsSorted(Chunk(ChunkText(segs[i]), stem, i), SegmentChunks(stem, segs, i + 1));
      }
    }
  }

  /** A chunk of segment `c.index` put in front of chunks from later
      segments: all of them come from segments at or after `c.index`. */
  lemma {:induction false} ConsChunks(c: Chunk, rest: seq<Chunk>, stem: string, segs: seq<string>)
    requires FromSegment(c, stem, segs)
    requires forall k :: 0 <= k < |rest| ==> c.index + 1 <= rest[k].index && FromSegment(rest[k], stem, segs)
    ensures forall k :: 0 <= k < |[c] + rest| ==> c.index <= ([c] + rest)[k].index && FromSegment(([c] + rest)[k], stem, segs)
  {
    hide Strip, ChunkText;
    var cs := [c] + rest;
    assert forall k :: 1 <= k < |cs| ==> cs[k] == rest[k - 1];
  }

  /** The chunk in front has the smallest index, so segment order is kept. */
  lemma {:induction false} ConsSorted(c: Chunk, rest: seq<Chunk>)
    requires forall k :: 0 <= k < |rest| ==> c.index < rest[k].index
    requires forall a, b :: 0 <= a < b < |rest| ==> rest[a].index < rest[b].index
    ensures forall a, b :: 0 <= a < b < |[c] + rest| ==> ([c] + rest)[a].index < ([c] + rest)[b].index
  {
    var cs := [c] + rest;
    assert forall k :: 1 <= k < |cs| ==> cs[k] == rest[k - 1];
  }

  /** One segment of the loop: a blank segment adds nothing, a non-blank
      one adds its chunk in front of the chunks of the later segments. */
  lemma {:induction false} SegmentChunksStep(stem: string, segs: seq<string>, i: nat)
    requires i < |segs|
    ensures Strip(segs[i]) == [] ==> SegmentChunks(stem, segs, i) == SegmentChunks(stem, segs, i + 1)
    ensures Strip(segs[i]) != [] ==>
      SegmentChunks(stem, segs, i) == [Chunk(ChunkText(segs[i]), stem, i)] + SegmentChunks(stem, segs, i + 1)
  {
  }

  /** Every non-blank segment at or after `i` yields a chunk. */
  lemma {:induction false} SegmentChunksComplete(stem: string, segs: seq<string>, i: nat, j: nat)
    requires i <= j < |segs| && Strip(segs[j]) != []
    ensures exists k :: 0 <= k < |SegmentChunks(stem, segs, i)| && SegmentChunks(stem, segs, i)[k].index == j
    decreases |segs| - i
  {
    hide Strip, ChunkText;
    var cs := SegmentChunks(stem, segs, i);
    if i == j {
      assert cs[0].index == j;
    } else {
      var rest := SegmentChunks(stem, segs, i + 1);
      SegmentChunksComplete(stem, segs, i + 1, j);
      var k :| 0 <= k < |rest| && rest[k].index == j;
      if Strip(segs[i]) == [] {
        assert cs[k].index == j;
      } else {
        assert cs[k + 1].index == j;
      }
    }
  }

  /** The chunks of one file. */
  function FileChunks(f: SourceFile): (cs: seq<Chunk>)
    ensures |cs| <= |Split(f.content)|
    ensures forall k :: 0 <= k < |cs| ==> cs[k].source == f.stem
  {
    SegmentChunks(f.stem, Split(f.content), 0)
  }

  /** The chunks of all files: file order first, segment order within a file. */
  function CorpusChunks(files: seq<SourceFile>): (cs: seq<Chunk>)
    ensures forall k :: 0 <= k < |cs| ==> exists j :: 0 <= j < |files| && cs[k].source == files[j].stem
  {
    if files == [] then []
    else
      var here, later := FileChunks(files[0]), CorpusChunks(files[1..]);
      assert forall m :: 0 <= m < |later| ==> exists j :: 1 <= j < |files| && later[m].source == files[j].stem by {
        forall m | 0 <= m < |later| ensures exists j :: 1 <= j < |files| && later[m].source == files[j].stem {
          var j :| 0 <= j < |files[1..]| && later[m].source == files[1..][j].stem;
          assert files[1..][j] == files[j + 1];
        }
      }
      here + later
  }

  /** The texts of a sequence of chunks, in the same order. */
  function Texts(cs: seq<Chunk>): (ts: seq<string>)
    ensures |ts| == |cs| && forall k :: 0 <= k < |cs| ==> ts[k] == cs[k].text
  {
    seq(|cs|, k requires 0 <= k < |cs| => cs[k].text)
  }

  /** The chunks from file `i` on are those of file `i` followed by those
      from file `i + 1` on. */
  lemma {:induction false} CorpusSuffix(files: seq<SourceFile>, i: nat)
    requires i < |files|
    ensures CorpusChunks(files[i..]) == FileChunks(files[i]) + CorpusChunks(files[i + 1..])
  {
    assert files[i..][1..] == files[i + 1..];
  }

  /** Texts of a concatenation are the concatenated texts. */
  lemma {:induction false} TextsAppend(a: seq<Chunk>, b: seq<Chunk>)
    ensures Texts(a + b) == Texts(a) + Texts(b)
  {
  }

  /** Appending one chunk appends its text. */
  lemma {:induction false} AppendChunkText(kb: seq<string>, done: seq<Chunk>, c: Chunk)
    ensures kb + Texts(done + [c]) == kb + Texts(done) + [c.text]
  {
    TextsAppend(done, [c]);
  }

  /** Moving a piece from the front of the remainder to the end of the
      prefix keeps the whole. */
  lemma {:induction false} MovePrefix<T>(done: seq<T>, here: seq<T>, later: seq<T>, whole: seq<T>)
    requires done + (here + later) == whole
    ensures (done + here) + later == whole
  {
  }

  /** `c` is the chunk file `f` yields for its segment number `c.index`. */
  ghost predicate ChunkOf(c: Chunk, f: SourceFile) {
    FromSegment(c, f.stem, Split(f.content))
  }

  /** Chunks of a file are listed in segment order, every non-blank segment
      exactly once, blank ones not at all. */
  lemma {:induction false} FileChunksSpec(f: SourceFile)
    ensures forall c :: c in FileChunks(f) ==> ChunkOf(c, f)
    ensures forall a, b :: 0 <= a < b < |FileChunks(f)| ==> FileChunks(f)[a].index < FileChunks(f)[b].index
    ensures forall i :: 0 <= i < |Split(f.content)| ==>
      (Strip(Split(f.content)[i]) != [] <==> exists k :: 0 <= k < |FileChunks(f)| && FileChunks(f)[k].index == i)
  {
    var segs := Split(f.content);
    var cs := FileChunks(f);
    SegmentChunksSound(f.stem, segs, 0);
    SegmentChunksOrdered(f.stem, segs, 0);
    forall c | c in cs ensures ChunkOf(c, f) {
      var k :| 0 <= k < |cs| && cs[k] == c;
      assert FromSegment(cs[k], f.stem, segs);
    }
    forall i | 0 <= i < |segs|
      ensures Strip(segs[i]) != [] <==> exists k :: 0 <= k < |cs| && cs[k].index == i
    {
      if Strip(segs[i]) != [] {
        SegmentChunksComplete(f.stem, segs, 0, i);
      }
      if exists k :: 0 <= k < |cs| && cs[k].index == i {
        var k :| 0 <= k < |cs| && cs[k].index == i;
        assert FromSegment(cs[k], f.stem, segs);
      }
    }
  }

  /** A directory of one file yields exactly that file's chunks. */
  lemma {:induction false} CorpusChunksOne(f: SourceFile)
    ensures CorpusChunks([f]) == FileChunks(f)
  {
    assert [f][1..] == [];
  }

  /** Chunks of later files come after those of earlier files. */
  lemma {:induction false} CorpusChunksAppend(a: seq<SourceFile>, b: seq<SourceFile>)
    ensures CorpusChunks(a + b) == CorpusChunks(a) + CorpusChunks(b)
  {
    if a != [] {
      assert (a + b)[1..] == a[1..] + b;
      CorpusChunksAppend(a[1..], b);
    } else {
      assert a + b == b;
    }
  }

  /** Every chunk of the corpus comes from one of its files, and is a
      valid chunk text. */
  lemma {:induction false} CorpusChunksProvenance(files: seq<SourceFile>)
    ensures forall c :: c in CorpusChunks(files) ==>
      ValidChunkText(c.text) && exists f :: f in files && ChunkOf(c, f)
  {
    if files != [] {
      CorpusChunksProvenance(files[1..]);
      FileChunksSpec(files[0]);
      forall c | c in CorpusChunks(files)
        ensures ValidChunkText(c.text) && exists f :: f in files && ChunkOf(c, f)
      {
        if c in FileChunks(files[0]) {
          assert ChunkOf(c, files[0]);
        } else {
          var f :| f in files[1..] && ChunkOf(c, f);
          assert f in files;
        }
      }
    }
  }

  /** A file yields no chunk exactly when all its segments are blank. */
  lemma {:induction false} FileChunksEmpty(f: SourceFile)
    ensures FileChunks(f) == [] <==> forall seg :: seg in Split(f.content) ==> AllSpace(seg)
  {
    var segs := Split(f.content);
    FileChunksSpec(f);
    if FileChunks(f) != [] {
      var c := FileChunks(f)[0];
      assert ChunkOf(c, f);
      StripSpec(segs[c.index]);
    } else {
      forall seg | seg in segs ensures AllSpace(seg) {
        var i :| 0 <= i < |segs| && segs[i] == seg;
        StripSpec(seg);
      }
    }
  }

  /** The corpus is empty exactly when every segment of every file is blank. */
  lemma {:induction false} CorpusChunksEmpty(files: seq<SourceFile>)
    ensures CorpusChunks(files) == [] <==>
      forall f, seg :: f in files && seg in Split(f.content) ==> AllSpace(seg)
  {
    if files != [] {
      CorpusChunksEmpty(files[1..]);
      FileChunksEmpty(files[0]);
      assert forall f :: f in files <==> f == files[0] || f in files[1..];
    }
  }

  /** Worked example: "A\n\nB\n\nC" yields the three chunks "A", "B", "C",
      from segments 0, 1 and 2, in that order. */
  lemma {:induction false} ThreeParagraphs(f: SourceFile)
    requires f.content == "A\n\nB\n\nC"
    ensures FileChunks(f) == [Chunk("A", f.stem, 0), Chunk("B", f.stem, 1), Chunk("C", f.stem, 2)]
  {
    // the segments are settled; their chunks follow from the loop steps alone
    hide Split, Strip, ChunkText;
    var parts := ["A", "B", "C"];
    assert Join(parts) == f.content;
    SplitShort(f.content, parts);
    LetterStep(f.stem, parts, 0);
    LetterStep(f.stem, parts, 1);
    LetterStep(f.stem, parts, 2);
    assert SegmentChunks(f.stem, parts, 3) == [];
  }

  /** Worked example: blank segments leave gaps in the indices, so
      "A\n\n\n\nB" yields chunks from segments 0 and 2. */
  lemma {:induction false} IndexGap(f: SourceFile)
    requires f.content == "A\n\n\n\nB"
    ensures FileChunks(f) == [Chunk("A", f.stem, 0), Chunk("B", f.stem, 2)]
  {
    var parts := ["A", "", "B"];
    assert Strip(parts[1]) == [];
    hide Split, Strip, ChunkText;
    assert Join(parts) == f.content;
    SplitShort(f.content, parts);
    LetterStep(f.stem, parts, 0);
    SegmentChunksStep(f.stem, parts, 1);
    LetterStep(f.stem, parts, 2);
    assert SegmentChunks(f.stem, parts, 3) == [];
  }

  /** A file whose content is one non-space character yields that character
      as its only chunk, from segment 0. */
  lemma {:induction false} OneLetterFile(f: SourceFile)
    requires |f.content| == 1 && !IsSpace(f.content[0])
    ensures FileChunks(f) == [Chunk(f.content, f.stem, 0)]
  {
    SplitSeparatorFree(f.content);
    hide Split, Strip, ChunkText;
    LetterStep(f.stem, [f.content], 0);
    assert SegmentChunks(f.stem, [f.content], 1) == [];
  }

  /** A segment of one non-space character is its own chunk. */
  lemma {:induction false} LetterStep(stem: string, segs: seq<string>, i: nat)
    requires i < |segs| && |segs[i]| == 1 && !IsSpace(segs[i][0])
    ensures SegmentChunks(stem, segs, i) == [Chunk(segs[i], stem, i)] + SegmentChunks(stem, segs, i + 1)
  {
    StripOfLetter(segs[i]);
    SegmentChunksStep(stem, segs, i);
  }

  /** Content made of parts of at most one character, none a newline,
      joined by blank lines, splits back into those parts. */
  lemma {:induction false} SplitShort(s: string, parts: seq<string>)
    requires |parts| >= 1 && s == Join(parts)
    requires forall k :: 0 <= k < |parts| ==> |parts[k]| <= 1 && parts[k] != "\n"
    ensures Split(s) == parts
  {
    assert WellSplit(parts);
    SplitUnique(parts, s);
  }

  /** A text is among the texts of some chunks exactly when one of the
      chunks holds it. */
  lemma {:induction false} TextsMembership(cs: seq<Chunk>)
    ensures forall x :: x in Texts(cs) <==> exists c :: c in cs && c.text == x
  {
    forall x ensures x in Texts(cs) <==> exists c :: c in cs && c.text == x {
      if exists c :: c in cs && c.text == x {
        var c :| c in cs && c.text == x;
        var k :| 0 <= k < |cs| && cs[k] == c;
        assert Texts(cs)[k] == x;
      }
    }
  }

  /** A single non-space character is its own strip. */
  lemma {:induction false} StripOfLetter(s: string)
    requires |s| == 1 && !IsSpace(s[0])
    ensures Strip(s) == s
  {
  }
}

=== FILE: light_store.dfy ===
/** The in-memory knowledge base (`database_light.py`): a list of chunk texts
    that `load_knowledge_base` fills from the knowledge directory, skipping
    the load when the list is already filled unless a reload is forced. The
    module-level list is passed in and returned explicitly. */
module LightStore {
  import opened Text
  import opened Chunking

  /** `get_documents_count()`: the number of chunks held. */
  function DocumentsCount(corpus: seq<string>): nat {
    |corpus|
  }

  /** `load_knowledge_base(force_reload)` applied to the knowledge base
      `corpus` with the directory `dir`: a filled knowledge base is kept
      unless `force`; a missing directory keeps it too; otherwise it is
      replaced by the chunks of the directory's files. */
  function Load(corpus: seq<string>, dir: Directory, force: bool): (r: seq<string>)
    ensures |corpus| > 0 && !force ==> r == corpus
    ensures dir.Missing? ==> r == corpus
    ensures dir.Present? && (|corpus| == 0 || force) ==>
      r == Texts(CorpusChunks(dir.files)) && |r| == |CorpusChunks(dir.files)|
    ensures dir.Present? && (|corpus| == 0 || force) ==>
      forall x :: x in r <==> exists c :: c in CorpusChunks(dir.files) && c.text == x
  {
    if |corpus| > 0 && !force then corpus
    else if dir.Missing? then corpus
    else
      var cs := CorpusChunks(dir.files);
      TextsMembership(cs);
      Texts(cs)
  }

  /** The body of the load loop: for every file in order, append its
      chunks. The result is the texts of the corpus chunks, in order. */
  method CollectChunks(files: seq<SourceFile>) returns (kb: seq<string>)
    ensures kb == Texts(CorpusChunks(files))
  {
    kb := [];
    var i := 0;
    assert files[0..] == files;
    while i < |files|
      invariant i <= |files|
      invariant kb + Texts(CorpusChunks(files[i..])) == Texts(CorpusChunks(files))
    {
      var kb' := AppendFileChunks(kb, files[i]);
      CorpusStep(files, i, kb, kb');
      kb, i := kb', i + 1;
    }
    assert files[i..] == [];
    assert Texts([]) == [];
  }

  /** One turn of the outer loop keeps its invariant: the texts from file
      `i` on are those of file `i` followed by those from file `i + 1` on. */
  lemma {:induction false} CorpusStep(files: seq<SourceFile>, i: nat, kb: seq<string>, kb': seq<string>)
    requires i < |files|
    requires kb + Texts(CorpusChunks(files[i..])) == Texts(CorpusChunks(files))
    requires kb' == kb + Texts(FileChunks(files[i]))
    ensures kb' + Texts(CorpusChunks(files[i + 1..])) == Texts(CorpusChunks(files))
  {
    var here, later := Texts(FileChunks(files[i])), Texts(CorpusChunks(files[i + 1..]));
    CorpusSuffix(files, i);
    TextsAppend(FileChunks(files[i]), CorpusChunks(files[i + 1..]));
    MovePrefix(kb, here, later, Texts(CorpusChunks(files)));
  }

  /** The inner loop for one file: split its content at blank lines, strip
      each segment, skip it if empty, cut it to 200 characters and append
      it to `kb`. */
  method AppendFileChunks(kb: seq<string>, f: SourceFile) returns (kb': seq<string>)
    ensures kb' == kb + Texts(FileChunks(f))
  {
    // `hide` keeps the definitions named out of the rest of this proof,
    // which needs only their contracts; it keeps the proof small
    hide Split;
    var segs := Split(f.content);
    kb' := kb;
    ghost var done: seq<Chunk> := [];
    var j := 0;
    while j < |segs|
      invariant j <= |segs|
      invariant done + SegmentChunks(f.stem, segs, j) == FileChunks(f)
      invariant kb' == kb + Texts(done)
    {
      var chunk := Strip(segs[j]);
      SegmentChunksStep(f.stem, segs, j);
      if chunk != [] {
        if |chunk| > MaxChunkLength {
          chunk := chunk[..MaxChunkLength];
        }
        assert chunk == ChunkText(segs[j]);
        var c := Chunk(chunk, f.stem, j);
        MovePrefix(done, [c], SegmentChunks(f.stem, segs, j + 1), FileChunks(f));
        AppendChunkText(kb, done, c);
        kb' := kb' + [chunk];
        done := done + [c];
      }
      j := j + 1;
    }
    assert done == FileChunks(f) by {
      assert SegmentChunks(f.stem, segs, j) == [];
    }
  }

  /** Loading again without force changes nothing: a repeated load is
      idempotent, whatever the first load did. */
  lemma {:induction false} LoadIdempotent(corpus: seq<string>, dir: Directory, force: bool)
    ensures Load(Load(corpus, dir, force), dir, false) == Load(corpus, dir, force)
  {
  }

  /** A forced load with the directory present keeps nothing of the previous
      knowledge base: the result is the same whatever was loaded before. */
  lemma {:induction false} ForcedLoadReplaces(before1: seq<string>, before2: seq<string>, files: seq<SourceFile>)
    ensures Load(before1, Present(files), true) == Load(before2, Present(files), true)
    ensures Load(before1, Present(files), true) == Texts(CorpusChunks(files))
  {
  }

  /** Every stored chunk is a valid chunk text, and loading keeps it so:
      an invariant of the knowledge base. */
  lemma {:induction false} LoadKeepsChunksValid(corpus: seq<string>, dir: Directory, force: bool)
    requires forall k :: 0 <= k < |corpus| ==> ValidChunkText(corpus[k])
    ensures forall k :: 0 <= k < |Load(corpus, dir, force)| ==> ValidChunkText(Load(corpus, dir, force)[k])
  {
    if dir.Present? {
      CorpusChunksProvenance(dir.files);
    }
  }

  /** A directory whose files hold only blank segments loads nothing: the
      count stays 0, and so it does on every further non-forced load. */
  lemma {:induction false} BlankDirectoryLoadsNothing(files: seq<SourceFile>, force: bool)
    requires forall f, seg :: f in files && seg in Split(f.content) ==> AllSpace(seg)
    ensures DocumentsCount(Load([], Present(files), force)) == 0
    ensures Load(Load([], Present(files), force), Present(files), false) == []
  {
    CorpusChunksEmpty(files);
  }
}

=== FILE: ranking.dfy ===
/** Retrieval over the in-memory corpus (`query_knowledge_base`): score every
    chunk against the query, sort stably by descending score, keep the first
    `n_results` and drop those whose score is not positive.

    Python's `list.sort(key=..., reverse=True)` is stable, so chunks with equal
    scores stay in corpus order. The sorted list is therefore the list of
    corpus positions ordered by score, highest first, and by position among
    equal scores; `Precedes` is that order. */
module Ranking {
  import opened Tokens
  import opened Scoring

  /** Position `i` comes before position `j` in the sorted list. */
  predicate Precedes(scores: seq<real>, i: nat, j: nat)
    requires i < |scores| && j < |scores|
  {
    scores[i] > scores[j] || (scores[i] == scores[j] && i < j)
  }

  /** `r` lists corpus positions in sorted order, none twice. */
  predicate Ranked(scores: seq<real>, r: seq<nat>) {
    && (forall k :: 0 <= k < |r| ==> r[k] < |scores|)
    && (forall a, b :: 0 <= a < b < |r| ==> Precedes(scores, r[a], r[b]))
  }

  /** Inserts position `x` into a sorted list of positions. */
  function Insert(scores: seq<real>, x: nat, r: seq<nat>): (r': seq<nat>)
    requires x < |scores| && Ranked(scores, r) && x !in r
    ensures Ranked(scores, r')
    ensures |r'| == |r| + 1 && forall y :: y in r' <==> y == x || y in r
    decreases |r|
  {
    if r == [] then [x]
    else if Precedes(scores, x, r[0]) then [x] + r
    else
      var rest := Insert(scores, x, r[1..]);
      assert forall y :: y in rest ==> Precedes(scores, r[0], y) by {
        forall y | y in rest ensures Precedes(scores, r[0], y) {
          if y != x { var b :| 1 <= b < |r| && r[b] == y; }
        }
      }
      [r[0]] + rest
  }

  /** The first `k` corpus positions in sorted order: the stable sort of
      `scored` by descending score. */
  function Rank(scores: seq<real>, k: nat): (r: seq<nat>)
    requires k <= |scores|
    ensures Ranked(scores, r)
    ensures |r| == k && forall y: nat :: y in r <==> y < k
  {
    if k == 0 then [] else Insert(scores, k - 1, Rank(scores, k - 1))
  }

  /** Sorting is determined: two sorted lists of the same positions are
      equal, so `Rank` agrees with any stable descending sort. */
  lemma {:induction false} RankUnique(scores: seq<real>, r1: seq<nat>, r2: seq<nat>)
    requires Ranked(scores, r1) && Ranked(scores, r2)
    requires |r1| == |r2| && forall y :: y in r1 <==> y in r2
    ensures r1 == r2
    decreases |r1|
  {
    if r1 != [] {
      var h1, h2 := r1[0], r2[0];
      assert h2 in r2 && h1 in r1;
      var a :| 0 <= a < |r1| && r1[a] == h2;
      var b :| 0 <= b < |r2| && r2[b] == h1;
      // each head precedes every other element of its own list
      assert a != 0 ==> Precedes(scores, h1, h2);
      assert b != 0 ==> Precedes(scores, h2, h1);
      assert h1 == h2;
      forall y ensures y in r1[1..] <==> y in r2[1..] {
        Distinct(scores, r1, y);
        Distinct(scores, r2, y);
      }
      RankUnique(scores, r1[1..], r2[1..]);
      assert r1 == [h1] + r1[1..] && r2 == [h2] + r2[1..];
    }
  }

  /** A sorted list holds each position once; its head is nowhere else. */
  lemma {:induction false} Distinct(scores: seq<real>, r: seq<nat>, y: nat)
    requires Ranked(scores, r) && r != []
    ensures y in r[1..] <==> y in r && y != r[0]
  {
    if y in r && y != r[0] {
      var a :| 0 <= a < |r| && r[a] == y;
      assert r[1..][a - 1] == y;
    }
  }

  /** Python's `xs[:n]`: the first `n` elements, or all of them when there
      are fewer; a negative `n` counts from the end, leaving all but the
      last `-n` elements. */
  function SliceTo<T>(xs: seq<T>, n: int): (r: seq<T>)
    ensures |r| <= |xs| && r == xs[..|r|]
    ensures 0 <= n ==> |r| == if n < |xs| then n else |xs|
    ensures n < 0 ==> |r| == if -n < |xs| then |xs| + n else 0
  {
    if n >= 0 then (if n < |xs| then xs[..n] else xs)
    else (if -n < |xs| then xs[..|xs| + n] else [])
  }

  /** How many elements `xs[:n]` keeps of a list of length `len`, before
      the cap at `len`: `n` itself when `n >= 0`, otherwise `len + n`, but
      never below 0. */
  function Limit(n: int, len: nat): (m: nat)
    ensures 0 <= n ==> m == n
    ensures n < 0 ==> m < len || len == 0
  {
    if n >= 0 then n else if -n < len then len + n else 0
  }

  /** `xs[:n]` is the prefix of `xs` of length `Limit(n, |xs|)`, or all of
      `xs` when that is longer. */
  lemma {:induction false} SliceToLimit<T>(xs: seq<T>, n: int)
    ensures var m := Limit(n, |xs|);
      SliceTo(xs, n) == if m < |xs| then xs[..m] else xs
  {
  }

  /** The positions of `p` whose score is positive, in order. */
  function KeepPositive(scores: seq<real>, p: seq<nat>): (r: seq<nat>)
    requires forall k :: 0 <= k < |p| ==> p[k] < |scores|
    ensures |r| <= |p|
    ensures forall k :: 0 <= k < |r| ==> r[k] < |scores| && scores[r[k]] > 0.0
    ensures forall y :: y in r ==> y in p
    decreases |p|
  {
    if p == [] then []
    else if scores[p[0]] > 0.0 then [p[0]] + KeepPositive(scores, p[1..])
    else KeepPositive(scores, p[1..])
  }

  /** The filter drops no positive position: every position of `p` with a
      positive score is kept. */
  lemma {:induction false} KeepPositiveComplete(scores: seq<real>, p: seq<nat>)
    requires forall k :: 0 <= k < |p| ==> p[k] < |scores|
    ensures forall k :: 0 <= k < |p| && scores[p[k]] > 0.0 ==> p[k] in KeepPositive(scores, p)
    decreases |p|
  {
    if p != [] {
      var tail := p[1..];
      KeepPositiveComplete(scores, tail);
      KeepPositiveUnfold(scores, p);
      var kt := KeepPositive(scores, tail);
      // `hide` keeps the definitions named out of the rest of this proof,
      // which needs only their contracts; it keeps the proof small
      hide KeepPositive;
      forall k | 0 <= k < |p| && scores[p[k]] > 0.0 ensures p[k] in KeepPositive(scores, p) {
        if k > 0 {
          assert p[k] == tail[k - 1];
          assert p[k] in kt;
        }
      }
    }
  }

  /** Filtering distributes over concatenation. With `KeepPositiveOne`
      this fixes the filter's result: every positive entry is kept, in
      order, as often as it occurs, and nothing else. */
  lemma {:induction false} KeepPositiveConcat(scores: seq<real>, p: seq<nat>, q: seq<nat>)
    requires forall k :: 0 <= k < |p| ==> p[k] < |scores|
    requires forall k :: 0 <= k < |q| ==> q[k] < |scores|
    ensures KeepPositive(scores, p + q) == KeepPositive(scores, p) + KeepPositive(scores, q)
    decreases |p|
  {
    if p == [] {
      assert p + q == q;
    } else {
      assert (p + q)[0] == p[0] && (p + q)[1..] == p[1..] + q;
      KeepPositiveConcat(scores, p[1..], q);
    }
  }

  /** A single position is kept exactly when its score is positive. */
  lemma {:induction false} KeepPositiveOne(scores: seq<real>, x: nat)
    requires x < |scores|
    ensures KeepPositive(scores, [x]) == if scores[x] > 0.0 then [x] else []
  {
    assert [x][1..] == [];
  }

  /** On a sorted list, the positive scores come first, so keeping the
      positive ones keeps a prefix. */
  lemma {:induction false} KeepPositivePrefix(scores: seq<real>, p: seq<nat>)
    requires Ranked(scores, p)
    ensures |KeepPositive(scores, p)| <= |p|
    ensures KeepPositive(scores, p) == p[..|KeepPositive(scores, p)|]
    ensures forall k :: |KeepPositive(scores, p)| <= k < |p| ==> scores[p[k]] <= 0.0
    decreases |p|
  {
    if p != [] {
      var tail := p[1..];
      assert Ranked(scores, tail);
      KeepPositivePrefix(scores, tail);
      // every later score is at most the first
      assert forall k :: 0 <= k < |tail| ==> Precedes(scores, p[0], tail[k]);
      KeepPrefixStep(scores, p);
    }
  }

  /** The step of `KeepPositivePrefix`: what holds of the tail holds of the
      whole list when a non-positive head is followed only by non-positive
      scores. */
  lemma {:induction false} KeepPrefixStep(scores: seq<real>, p: seq<nat>)
    requires p != [] && forall k :: 0 <= k < |p| ==> p[k] < |scores|
    requires var kt := KeepPositive(scores, p[1..]);
      && kt == p[1..][..|kt|]
      && forall k :: |kt| <= k < |p| - 1 ==> scores[p[1..][k]] <= 0.0
    requires scores[p[0]] <= 0.0 ==> forall k :: 1 <= k < |p| ==> scores[p[k]] <= 0.0
    ensures KeepPositive(scores, p) == p[..|KeepPositive(scores, p)|]
    ensures forall k :: |KeepPositive(scores, p)| <= k < |p| ==> scores[p[k]] <= 0.0
  {
    var tail := p[1..];
    KeepPositiveUnfold(scores, p);
    var kt := KeepPositive(scores, tail);
    hide KeepPositive;
    if scores[p[0]] <= 0.0 {
      assert forall k :: 0 <= k < |tail| ==> scores[tail[k]] <= 0.0;
      NoPositive(scores, tail);
    } else {
      assert [p[0]] + tail[..|kt|] == p[..|kt| + 1];
      assert forall k :: |kt| + 1 <= k < |p| ==> p[k] == tail[k - 1];
    }
  }

  /** One step of `KeepPositive`. */
  lemma {:induction false} KeepPositiveUnfold(scores: seq<real>, p: seq<nat>)
    requires p != [] && forall k :: 0 <= k < |p| ==> p[k] < |scores|
    ensures KeepPositive(scores, p) ==
      if scores[p[0]] > 0.0 then [p[0]] + KeepPositive(scores, p[1..]) else KeepPositive(scores, p[1..])
  {
  }

  /** Nothing is kept from a list without positive scores. */
  lemma {:induction false} NoPositive(scores: seq<real>, p: seq<nat>)
    requires forall k :: 0 <= k < |p| ==> p[k] < |scores| && scores[p[k]] <= 0.0
    ensures KeepPositive(scores, p) == []
    decreases |p|
  {
    if p != [] {
      NoPositive(scores, p[1..]);
    }
  }

  /** A sorted list of all positions `0 .. |scores| - 1`. */
  ghost predicate IsRanking(scores: seq<real>, ranking: seq<nat>) {
    Ranked(scores, ranking) && |ranking| == |scores| && forall y: nat :: y in ranking <==> y < |scores|
  }

  /** Keeping the positive scores among the first `n` of a ranking keeps a
      prefix of it, of at most `n` positions, and stops either at `n` or at
      the first non-positive score. */
  lemma {:induction false} TopPositivesPrefix(scores: seq<real>, ranking: seq<nat>, n: int)
    requires IsRanking(scores, ranking)
    ensures var r := KeepPositive(scores, SliceTo(ranking, n));
      && |r| <= |ranking| && r == ranking[..|r|]
      && |r| <= Limit(n, |scores|)
      && (|r| < Limit(n, |scores|) ==> forall q :: |r| <= q < |ranking| ==> scores[ranking[q]] <= 0.0)
  {
    var m := Limit(n, |scores|);
    var t := if m < |ranking| then m else |ranking|;
    SliceToLimit(ranking, n);
    assert SliceTo(ranking, n) == ranking[..t];
    hide SliceTo, Limit;
    KeepPrefixOfRanking(scores, ranking, t);
  }

  /** Keeping the positive scores among the first `t` of a ranking keeps a
      prefix of it; if that prefix is shorter than `t`, no later position
      scores above 0. */
  lemma {:induction false} KeepPrefixOfRanking(scores: seq<real>, ranking: seq<nat>, t: nat)
    requires IsRanking(scores, ranking) && t <= |ranking|
    ensures var r := KeepPositive(scores, ranking[..t]);
      && |r| <= t && r == ranking[..|r|]
      && (|r| < t ==> forall q :: |r| <= q < |ranking| ==> scores[ranking[q]] <= 0.0)
  {
    var top := ranking[..t];
    assert Ranked(scores, top);
    KeepPositivePrefix(scores, top);
    var r := KeepPositive(scores, top);
    hide KeepPositive;
    if |r| < t {
      assert scores[top[|r|]] <= 0.0;
      forall q | |r| <= q < |ranking| ensures scores[ranking[q]] <= 0.0 {
        assert q == |r| || Precedes(scores, ranking[|r|], ranking[q]);
      }
    }
  }

  /** No position outside a prefix of a ranking ranks before one inside it. */
  lemma {:induction false} PrefixPrecedesRest(scores: seq<real>, ranking: seq<nat>, m: nat)
    requires IsRanking(scores, ranking) && m <= |ranking|
    ensures forall k, j :: 0 <= k < m && 0 <= j < |scores| && j !in ranking[..m] ==>
      Precedes(scores, ranking[k], j)
  {
    forall k, j: nat | 0 <= k < m && j < |scores| && j !in ranking[..m]
      ensures Precedes(scores, ranking[k], j)
    {
      assert j in ranking;
      OutsidePrefix(ranking, m, j);
    }
  }

  /** The positions of a ranking that are not in a prefix of it are those
      after the prefix. */
  lemma {:induction false} OutsidePrefix(ranking: seq<nat>, m: nat, j: nat)
    requires m <= |ranking| && j in ranking && j !in ranking[..m]
    ensures exists q :: m <= q < |ranking| && ranking[q] == j
  {
    assert forall p :: 0 <= p < m ==> ranking[..m][p] == ranking[p];
  }

  /** The score of every chunk, in corpus order (`scored`). */
  function Scores(query: string, corpus: seq<string>): (s: seq<real>)
    ensures |s| == |corpus| && forall k :: 0 <= k < |corpus| ==> s[k] == Score(query, corpus[k])
  {
    seq(|corpus|, k requires 0 <= k < |corpus| => Score(query, corpus[k]))
  }

  /** `r` lists the best-scoring positions, best first (equal scores in
      corpus order), at most `m` of them, all with a positive score; no
      position left out ranks before a listed one; and when fewer than `m`
      are listed, every position with a positive score is among them. */
  ghost predicate IsTop(scores: seq<real>, m: nat, r: seq<nat>) {
    && |r| <= m
    && Ranked(scores, r)
    && (forall k :: 0 <= k < |r| ==> scores[r[k]] > 0.0)
    && (forall k, j :: 0 <= k < |r| && 0 <= j < |scores| && j !in r ==> Precedes(scores, r[k], j))
    && (|r| < m ==> forall j :: 0 <= j < |scores| && scores[j] > 0.0 ==> j in r)
  }

  /** The positions `query_knowledge_base` returns for the scores of the
      corpus: the top `Limit(n, |scores|)` positions, which for a negative
      `n` means all but the last `-n` of the ranking before the filter. */
  function TopPositions(scores: seq<real>, n: int): (r: seq<nat>)
    ensures IsTop(scores, Limit(n, |scores|), r)
  {
    var ranking := Rank(scores, |scores|);
    TopPositivesPrefix(scores, ranking, n);
    var r := KeepPositive(scores, SliceTo(ranking, n));
    PrefixPrecedesRest(scores, ranking, |r|);
    assert forall j :: 0 <= j < |scores| && j !in r ==> exists q :: |r| <= q < |ranking| && ranking[q] == j by {
      forall j | 0 <= j < |scores| && j !in r
        ensures exists q :: |r| <= q < |ranking| && ranking[q] == j
      {
        OutsidePrefix(ranking, |r|, j);
      }
    }
    r
  }

  /** The top positions are determined: two lists that both satisfy
      `IsTop` for the same bound are equal. So `TopPositions` is the only
      possible result, whatever sort produced it. */
  lemma {:induction false} TopUnique(scores: seq<real>, m: nat, r1: seq<nat>, r2: seq<nat>)
    requires IsTop(scores, m, r1) && IsTop(scores, m, r2)
    ensures r1 == r2
  {
    TopIncluded(scores, m, r1, r2);
    TopIncluded(scores, m, r2, r1);
    RankedCard(scores, r1);
    RankedCard(scores, r2);
    assert Elems(r1) == Elems(r2);
    RankUnique(scores, r1, r2);
  }

  /** Every position of one top list is in any other for the same bound. */
  lemma {:induction false} TopIncluded(scores: seq<real>, m: nat, r1: seq<nat>, r2: seq<nat>)
    requires IsTop(scores, m, r1) && IsTop(scores, m, r2)
    ensures forall j :: j in r1 ==> j in r2
  {
    forall j | j in r1 ensures j in r2 {
      if j !in r2 {
        var a :| 0 <= a < |r1| && r1[a] == j;
        assert j < |scores| && scores[j] > 0.0;
        // r2 stopped at the bound, and all of it ranks before j
        assert |r2| == m;
        forall y | y in r2 ensures y in r1 {
          var b :| 0 <= b < |r2| && r2[b] == y;
          assert Precedes(scores, y, j);
          assert y !in r1 ==> Precedes(scores, j, y);
        }
        RankedCard(scores, r1);
        RankedCard(scores, r2);
        var s1, s2 := Elems(r1), Elems(r2);
        assert s2 + {j} <= s1;
        assert |s2 + {j}| == m + 1;
        SubsetCardinality(s2 + {j}, s1);
        assert false;
      }
    }
  }

  /** The positions a list holds. */
  ghost function Elems(r: seq<nat>): set<nat> {
    set x | x in r
  }

  /** A sorted list holds as many distinct positions as it is long. */
  lemma {:induction false} RankedCard(scores: seq<real>, r: seq<nat>)
    requires Ranked(scores, r)
    ensures |Elems(r)| == |r|
    decreases |r|
  {
    if r != [] {
      assert Ranked(scores, r[1..]);
      RankedCard(scores, r[1..]);
      forall y ensures y in r[1..] <==> y in r && y != r[0] {
        Distinct(scores, r, y);
      }
      assert Elems(r) == Elems(r[1..]) + {r[0]};
      assert r[0] !in Elems(r[1..]);
    }
  }

  /** `query_knowledge_base(query, n_results)` over the corpus `corpus`:
      at most `n` chunks of the corpus, each sharing a word with the query,
      best match first; a chunk left out scores no higher than any chunk
      returned, and fewer than `n` come back only when every chunk sharing
      a word with the query is among them. Precisely, the result is the
      chunks at the top positions of the corpus, which `TopUnique` shows
      to be determined, equal scores and repeated texts included. */
  function Retrieve(query: string, corpus: seq<string>, n: int): (r: seq<string>)
    ensures exists idx :: IsTop(Scores(query, corpus), Limit(n, |corpus|), idx) && r == Pick(corpus, idx)
    ensures |r| <= Limit(n, |corpus|)
    ensures forall k :: 0 <= k < |r| ==> r[k] in corpus && Score(query, r[k]) > 0.0
    ensures forall a, b :: 0 <= a < b < |r| ==> Score(query, r[a]) >= Score(query, r[b])
    ensures forall x, k :: x in corpus && x !in r && 0 <= k < |r| ==> Score(query, r[k]) >= Score(query, x)
    ensures |r| < Limit(n, |corpus|) ==> forall x :: x in corpus && Score(query, x) > 0.0 ==> x in r
  {
    var scores := Scores(query, corpus);
    var idx := TopPositions(scores, n);
    PickTop(query, corpus, Limit(n, |corpus|), scores, idx, Pick(corpus, idx));
    Pick(corpus, idx)
  }

  /** The chunks at the top positions inherit the positions' properties. */
  lemma {:induction false} PickTop(query: string, corpus: seq<string>, m: nat,
                                   scores: seq<real>, idx: seq<nat>, r: seq<string>)
    requires scores == Scores(query, corpus) && IsTop(scores, m, idx) && r == Pick(corpus, idx)
    ensures forall k :: 0 <= k < |r| ==> Score(query, r[k]) > 0.0
    ensures forall a, b :: 0 <= a < b < |r| ==> Score(query, r[a]) >= Score(query, r[b])
    ensures forall x, k :: x in corpus && x !in r && 0 <= k < |r| ==> Score(query, r[k]) >= Score(query, x)
    ensures |r| < m ==> forall x :: x in corpus && Score(query, x) > 0.0 ==> x in r
  {
    hide Score;
    assert forall k :: 0 <= k < |r| ==> scores[idx[k]] == Score(query, r[k]);
    assert forall a, b :: 0 <= a < b < |r| ==> Precedes(scores, idx[a], idx[b]);
    forall x, k | x in corpus && x !in r && 0 <= k < |r| ensures Score(query, r[k]) >= Score(query, x) {
      var j :| 0 <= j < |corpus| && corpus[j] == x;
      // position j is not among the top ones, or x would have been returned
      assert j !in idx;
      assert Precedes(scores, idx[k], j);
    }
    if |r| < m {
      forall x | x in corpus && Score(query, x) > 0.0 ensures x in r {
        var j :| 0 <= j < |corpus| && corpus[j] == x;
        assert scores[j] > 0.0;
        var m :| 0 <= m < |idx| && idx[m] == j;
        assert r[m] == x;
      }
    }
  }

  /** The chunks at the given corpus positions, in the order given. */
  function Pick(corpus: seq<string>, idx: seq<nat>): (r: seq<string>)
    requires forall k :: 0 <= k < |idx| ==> idx[k] < |corpus|
    ensures |r| == |idx| && forall k :: 0 <= k < |idx| ==> r[k] == corpus[idx[k]] && r[k] in corpus
  {
    seq(|idx|, k requires 0 <= k < |idx| => corpus[idx[k]])
  }

  /** A query sharing no word with any chunk retrieves nothing. */
  lemma {:induction false} NoOverlapRetrievesNothing(query: string, corpus: seq<string>, n: int)
    requires forall k :: 0 <= k < |corpus| ==> TokenSet(query) * TokenSet(corpus[k]) == {}
    ensures Retrieve(query, corpus, n) == []
  {
    forall k | 0 <= k < |corpus| ensures Score(query, corpus[k]) <= 0.0 {
      ScoreSpec(query, corpus[k]);
    }
    TopOfNothing(Scores(query, corpus), Limit(n, |corpus|), TopPositions(Scores(query, corpus), n));
  }

  /** Without a positive score there are no top positions. */
  lemma {:induction false} TopOfNothing(scores: seq<real>, m: nat, r: seq<nat>)
    requires IsTop(scores, m, r)
    ensures (forall j :: 0 <= j < |scores| ==> scores[j] <= 0.0) ==> r == []
  {
    if r != [] {
      assert scores[r[0]] > 0.0;
    }
  }

  /** With at least one result requested, the chunk of a one-chunk corpus is
      returned exactly when it shares a word with the query. */
  lemma {:induction false} SingleChunk(query: string, chunk: string, n: int)
    requires n >= 1
    ensures Retrieve(query, [chunk], n) == (if Score(query, chunk) > 0.0 then [chunk] else [])
  {
    // only the order of the scores matters here, not how they are computed
    hide Score;
    assert Pick([chunk], [0]) == [chunk];
    TopOfOne(Scores(query, [chunk]), n);
    assert Scores(query, [chunk])[0] == Score(query, chunk);
  }

  /** Equal scores keep corpus order: of two chunks that match equally
      well, a single requested result is the earlier one. */
  lemma {:induction false} TieKeepsCorpusOrder(query: string, x: string, y: string)
    requires Score(query, x) == Score(query, y) > 0.0
    ensures Retrieve(query, [x, y], 1) == [x]
  {
    hide Score;
    var scores := Scores(query, [x, y]);
    assert scores[0] == scores[1] > 0.0;
    assert Precedes(scores, 0, 1);
    assert IsTop(scores, 1, [0]);
    TopUnique(scores, 1, TopPositions(scores, 1), [0]);
    assert Pick([x, y], [0]) == [x];
  }

  /** A text that occurs twice in the corpus comes back twice. */
  lemma {:induction false} RepeatedChunk(query: string, x: string)
    requires Score(query, x) > 0.0
    ensures Retrieve(query, [x, x], 2) == [x, x]
  {
    hide Score;
    var scores := Scores(query, [x, x]);
    assert scores[0] == scores[1] > 0.0;
    assert Precedes(scores, 0, 1);
    assert IsTop(scores, 2, [0, 1]);
    TopUnique(scores, 2, TopPositions(scores, 2), [0, 1]);
    assert Pick([x, x], [0, 1]) == [x, x];
  }

  /** With one position and at least one result requested, the top
      positions are that position exactly when its score is positive. */
  lemma {:induction false} TopOfOne(scores: seq<real>, n: int)
    requires |scores| == 1 && n >= 1
    ensures TopPositions(scores, n) == if scores[0] > 0.0 then [0] else []
  {
    var idx := TopPositions(scores, n);
    // only position 0 exists, and a ranked list holds it at most once
    HeadsDiffer(scores, idx);
    assert |idx| <= 1 && (|idx| == 1 ==> idx == [0]);
  }

  /** The first two positions of a ranked list differ. */
  lemma {:induction false} HeadsDiffer(scores: seq<real>, r: seq<nat>)
    ensures Ranked(scores, r) && |r| > 1 ==> r[0] != r[1]
  {
    if Ranked(scores, r) && |r| > 1 {
      assert Precedes(scores, r[0], r[1]);
    }
  }

  /** Worked example: asking "apa itu netiquette" against the company
      profile chunk with the default single result returns that chunk,
      since the two share the word "netiquette" once case is ignored. */
  lemma {:induction false} NetiquetteExample(query: string, chunk: string, lead: string, word: string, head: string, rest: string)
    requires lead == "apa itu" && word == "netiquette" && query == lead + " " + word
    requires head == "Netiquette" && chunk == head + " " + rest
    requires rest == "Software adalah perusahaan penyedia solusi bisnis berbasis cloud"
    ensures Retrieve(query, [chunk], 1) == [chunk]
  {
    assert Lower(head) == word by {
      assert forall k :: 0 < k < |head| ==> head[k] == word[k];
    }
    assert AllWord(head);
    LastToken(lead, ' ', word);
    FirstToken(head, ' ', rest);
    hide Score, TokenSet;
    assert word in TokenSet(query) * TokenSet(chunk);
    ScoreSpec(query, chunk);
    SingleChunk(query, chunk, 1);
  }

  /** A lower-case word after a separator is a token of the text. */
  lemma {:induction false} LastToken(a: string, c: char, w: string)
    requires !IsWordChar(c) && w != [] && AllWord(w) && Lower(w) == w
    ensures w in TokenSet(a + [c] + w)
  {
    TokenSetConcat(a, c, w);
    TokenSetOfWord(w);
  }

  /** The lower-cased first word before a separator is a token of the text. */
  lemma {:induction false} FirstToken(h: string, c: char, b: string)
    requires !IsWordChar(c) && h != [] && AllWord(h)
    ensures Lower(h) in TokenSet(h + [c] + b)
  {
    TokenSetConcat(h, c, b);
    LowerIdempotent(h);
    TokenSetOfWord(Lower(h));
    TokenSetIgnoresCase(h);
  }
}

=== FILE: scoring.dfy ===
/** The keyword-overlap relevance score `simple_similarity`: the fraction of
    the query's tokens that also occur in the chunk. */
module Scoring {
  import opened Tokens

  /** `simple_similarity(query, text)`: the share of distinct query tokens
      found among the text's tokens, 0 for a query without tokens. */
  function Score(query: string, text: string): (r: real)
    ensures 0.0 <= r <= 1.0
  {
    var q := TokenSet(query);
    var t := TokenSet(text);
    if |q| == 0 then 0.0
    else
      var common := q * t;
      SubsetCardinality(common, q);
      Ratio(|common|, |q|);
      (|common| as real) / (|q| as real)
  }

  /** What the score says about the tokens: 0 for a query without tokens,
      positive exactly when query and text share a token, and 1 exactly when
      every query token occurs in the text. */
  lemma {:induction false} ScoreSpec(query: string, text: string)
    ensures TokenSet(query) == {} ==> Score(query, text) == 0.0
    ensures Score(query, text) > 0.0 <==> TokenSet(query) * TokenSet(text) != {}
    ensures Score(query, text) == 1.0 <==> TokenSet(query) != {} && TokenSet(query) <= TokenSet(text)
  {
    var q, t := TokenSet(query), TokenSet(text);
    if |q| != 0 {
      var common := q * t;
      SubsetCardinality(common, q);
      assert common == q <==> q <= t;
      Ratio(|common|, |q|);
    }
  }

  /** A count out of a positive total is a fraction in [0, 1], positive
      exactly when the count is, and 1 exactly when it is the total. */
  lemma {:induction false} Ratio(part: nat, total: nat)
    requires part <= total && total > 0
    ensures var r := (part as real) / (total as real);
      0.0 <= r <= 1.0 && (r > 0.0 <==> part > 0) && (r == 1.0 <==> part == total)
  {
    var r := (part as real) / (total as real);
    assert r * (total as real) == part as real;
  }

  /** A subset is no larger than its superset, and equally large only when
      it is the superset. */
  lemma {:induction false} SubsetCardinality<T>(a: set<T>, b: set<T>)
    requires a <= b
    ensures |a| <= |b|
    ensures |a| == |b| ==> a == b
  {
    var rest := b - a;
    assert b == a + rest && a * rest == {};
    assert |rest| == 0 ==> rest == {};
  }

  /** The score does not depend on letter case, in the query or in the text. */
  lemma {:induction false} ScoreIgnoresCase(query: string, text: string)
    ensures Score(Lower(query), text) == Score(query, text)
    ensures Score(query, Lower(text)) == Score(query, text)
  {
    TokenSetIgnoresCase(query);
    TokenSetIgnoresCase(text);
  }

  /** The score does not depend on how often a query word is repeated:
      saying the query twice, separated by a non-word character, scores the
      same. */
  lemma {:induction false} ScoreIgnoresRepetition(query: string, c: char, text: string)
    requires !IsWordChar(c)
    ensures Score(query + [c] + query, text) == Score(query, text)
  {
    TokenSetConcat(query, c, query);
    assert TokenSet(query + [c] + query) == TokenSet(query);
  }

  /** Worked value: "hello world" against "hello there" scores 0.5, one of
      the two query words being found. */
  lemma {:induction false} ScoreExample(query: string, text: string)
    requires query == "hello world" && text == "hello there"
    ensures Score(query, text) == 0.5
  {
    var hello, world, there := "hello", "world", "there";
    // `hide` keeps the definitions named out of the rest of this proof,
    // which needs only their contracts; it keeps the proof small
    hide TokenSet;
    PhraseTokens(query, hello, world);
    PhraseTokens(text, hello, there);
    var q, t := TokenSet(query), TokenSet(text);
    assert hello[0] != world[0] && hello[0] != there[0] && world[0] != there[0];
    assert q * t == {hello} && |q| == 2;
  }

  /** The tokens of a two-word lower-case phrase. */
  lemma {:induction false} PhraseTokens(phrase: string, a: string, b: string)
    requires (a == "hello" && b == "world") || (a == "hello" && b == "there")
    requires phrase == a + " " + b
    ensures TokenSet(phrase) == {a, b}
  {
    assert Lower(a) == a && AllWord(a);
    assert Lower(b) == b && AllWord(b);
    TwoWords(a, b);
  }

  /** Two lower-case words separated by a space give two tokens. */
  lemma {:induction false} TwoWords(a: string, b: string)
    requires a != [] && AllWord(a) && Lower(a) == a
    requires b != [] && AllWord(b) && Lower(b) == b
    ensures TokenSet(a + " " + b) == {a, b}
  {
    TokenSetConcat(a, ' ', b);
    TokenSetOfWord(a);
    TokenSetOfWord(b);
  }
}

=== FILE: text.dfy ===
/** String primitives the knowledge-base loader relies on: Python's
    `str.strip()`, `str.split('\n\n')`, the 200-character slice and `str(i)`
    for the chunk ids. Strings are sequences of code points. */
module Text {

  /** The paragraph delimiter the loader splits on. */
  const Separator: string := "\n\n"

  /** Hard cap on the length of a stored chunk. */
  const MaxChunkLength: nat := 200

  /** The characters Python's `str.isspace()` accepts, which is the set
      `str.strip()` with no argument removes. */
  predicate IsSpace(c: char) {
    || c == ' ' || c == '\t' || c == '\n' || c == '\r'
    || c == '\U{0B}' || c == '\U{0C}'
    || ('\U{1C}' <= c <= '\U{1F}')
    || c == '\U{85}' || c == '\U{A0}' || c == '\U{1680}'
    || ('\U{2000}' <= c <= '\U{200A}')
    || c == '\U{2028}' || c == '\U{2029}' || c == '\U{202F}' || c == '\U{205F}'
    || c == '\U{3000}'
  }

  predicate AllSpace(s: string) {
    forall k :: 0 <= k < |s| ==> IsSpace(s[k])
  }

  // ---------------------------------------------------------------- strip

  /** `s.lstrip()`: drops leading whitespace. */
  function TrimStart(s: string): (r: string)
    ensures |r| <= |s|
    ensures r == [] || !IsSpace(r[0])
    decreases |s|
  {
    if s != [] && IsSpace(s[0]) then TrimStart(s[1..]) else s
  }

  /** `s.rstrip()`: drops trailing whitespace. */
  function TrimEnd(s: string): (r: string)
    ensures |r| <= |s|
    ensures r == [] || !IsSpace(r[|r| - 1])
    decreases |s|
  {
    if s != [] && IsSpace(s[|s| - 1]) then TrimEnd(s[..|s| - 1]) else s
  }

  /** What `TrimStart` drops is a prefix made of whitespace only. */
  lemma {:induction false} TrimStartSpec(s: string)
    ensures TrimStart(s) == s[|s| - |TrimStart(s)|..]
    ensures AllSpace(s[..|s| - |TrimStart(s)|])
    decreases |s|
  {
    if s != [] && IsSpace(s[0]) {
      TrimStartSpec(s[1..]);
      var d := |s| - |TrimStart(s)|;
      assert s[..d] == [s[0]] + s[1..][..d - 1];
    }
  }

  /** What `TrimEnd` drops is a suffix made of whitespace only. */
  lemma {:induction false} TrimEndSpec(s: string)
    ensures TrimEnd(s) == s[..|TrimEnd(s)|]
    ensures AllSpace(s[|TrimEnd(s)|..])
    decreases |s|
  {
    if s != [] && IsSpace(s[|s| - 1]) {
      var t := s[..|s| - 1];
      TrimEndSpec(t);
      var n := |TrimEnd(s)|;
      assert s[n..] == t[n..] + [s[|s| - 1]];
    }
  }

  /** `r` sits at offset `i` of `s` with nothing but whitespace before and
      after it. */
  ghost predicate PieceAt(r: string, s: string, i: int) {
    && 0 <= i && i + |r| <= |s|
    && r == s[i..i + |r|]
    && (forall k :: 0 <= k < i ==> IsSpace(s[k]))
    && (forall k :: i + |r| <= k < |s| ==> IsSpace(s[k]))
  }

  /** `r` is what remains of `s` once its leading and trailing whitespace
      are removed: a contiguous piece of `s`, surrounded only by whitespace,
      and neither starting nor ending with whitespace. */
  ghost predicate IsStripOf(r: string, s: string) {
    && (r == [] || (!IsSpace(r[0]) && !IsSpace(r[|r| - 1])))
    && exists i :: PieceAt(r, s, i)
  }

  /** Python's `s.strip()`: neither end of the result is whitespace. */
  function Strip(s: string): (r: string)
    ensures |r| <= |s|
    ensures r == [] || (!IsSpace(r[0]) && !IsSpace(r[|r| - 1]))
  {
    TrimEndSpec(TrimStart(s));
    TrimEnd(TrimStart(s))
  }

  /** `Strip` removes exactly the surrounding whitespace, and leaves nothing
      of a string that is all whitespace. */
  lemma {:induction false} StripSpec(s: string)
    ensures IsStripOf(Strip(s), s)
    ensures Strip(s) == [] <==> AllSpace(s)
  {
    var r := Strip(s);
    var i := |s| - |TrimStart(s)|;
    StripPiece(s);
    assert PieceAt(r, s, i);
    assert r != [] ==> r[0] == s[i];
  }

  /** `Strip(s)` sits where `TrimStart` stopped, with whitespace around. */
  lemma {:induction false} StripPiece(s: string)
    ensures PieceAt(Strip(s), s, |s| - |TrimStart(s)|)
  {
    var t := TrimStart(s);
    var r := TrimEnd(t);
    var i := |s| - |t|;
    assert Strip(s) == r;
    TrimStartSpec(s);
    TrimEndSpec(t);
    // `hide` keeps the definitions named out of the rest of this proof,
    // which needs only their contracts; it keeps the proof small
    hide Strip, TrimStart, TrimEnd;
    PieceOfTrims(s, t, r);
  }

  /** A piece cut from a suffix `t` of `s`, with whitespace before `t` and
      after the piece, sits in `s` with whitespace around it. */
  lemma {:induction false} PieceOfTrims(s: string, t: string, r: string)
    requires |t| <= |s| && t == s[|s| - |t|..] && AllSpace(s[..|s| - |t|])
    requires |r| <= |t| && r == t[..|r|] && AllSpace(t[|r|..])
    ensures PieceAt(r, s, |s| - |t|)
  {
    var i := |s| - |t|;
    assert s[i..i + |r|] == r;
    assert s[i + |r|..] == t[|r|..];
    PrefixSpace(s, i);
    SuffixSpace(s, i + |r|);
  }

  /** The characters of an all-whitespace prefix are whitespace. */
  lemma {:induction false} PrefixSpace(s: string, n: nat)
    requires n <= |s| && AllSpace(s[..n])
    ensures forall k :: 0 <= k < n ==> IsSpace(s[k])
  {
    forall k | 0 <= k < n ensures IsSpace(s[k]) {
      assert s[..n][k] == s[k];
    }
  }

  /** The characters of an all-whitespace suffix are whitespace. */
  lemma {:induction false} SuffixSpace(s: string, n: nat)
    requires n <= |s| && AllSpace(s[n..])
    ensures forall k :: n <= k < |s| ==> IsSpace(s[k])
  {
    forall k | n <= k < |s| ensures IsSpace(s[k]) {
      assert s[n..][k - n] == s[k];
    }
  }

  /** Stripping is unique: there is only one way to cut the surrounding
      whitespace off a string. */
  lemma {:induction false} StripUnique(r1: string, r2: string, s: string)
    requires IsStripOf(r1, s) && IsStripOf(r2, s)
    ensures r1 == r2
  {
    var i1 :| PieceAt(r1, s, i1);
    var i2 :| PieceAt(r2, s, i2);
    assert r1 != [] ==> r1[0] == s[i1] && r1[|r1| - 1] == s[i1 + |r1| - 1];
    assert r2 != [] ==> r2[0] == s[i2] && r2[|r2| - 1] == s[i2 + |r2| - 1];
    if r1 == [] && r2 == [] {
    } else if r1 == [] || r2 == [] {
      // the empty strip leaves only whitespace, the other one does not
      assert false;
    } else {
      // each piece starts at the first non-space character and ends after the last
      assert i1 == i2;
      assert |r1| == |r2|;
    }
  }

  // -------------------------------------------------------------- truncate

  /** The slice `s[:200]` applied to a chunk longer than 200 characters:
      exactly the first 200 characters of a longer string, the string itself
      otherwise. */
  function Truncate(s: string): (r: string)
    ensures |r| <= |s| && r == s[..|r|]
    ensures |s| <= MaxChunkLength ==> r == s
    ensures |s| > MaxChunkLength ==> |r| == MaxChunkLength
  {
    if |s| > MaxChunkLength then s[..MaxChunkLength] else s
  }

  // ----------------------------------------------------------------- split

  /** No two consecutive newlines inside `p`. */
  predicate SeparatorFree(p: string) {
    forall i :: 0 <= i < |p| - 1 ==> !(p[i] == '\n' && p[i + 1] == '\n')
  }

  /** Inverse of `Split`: Python's `"\n\n".join(parts)`. */
  function Join(parts: seq<string>): string
    requires |parts| >= 1
  {
    if |parts| == 1 then parts[0] else parts[0] + Separator + Join(parts[1..])
  }

  /** The shape of a left-to-right split: no part contains the separator,
      and no part but the last ends in a newline (otherwise the separator
      would have been found one character earlier). */
  predicate WellSplit(parts: seq<string>) {
    && |parts| >= 1
    && (forall k :: 0 <= k < |parts| ==> SeparatorFree(parts[k]))
    && (forall k :: 0 <= k < |parts| - 1 ==> parts[k] == [] || parts[k][|parts[k]| - 1] != '\n')
  }

  /** Python's `s.split('\n\n')`: cut at each non-overlapping occurrence of
      the separator, scanning left to right; always at least one part. */
  function Split(s: string): (parts: seq<string>)
    ensures |parts| >= 1
    decreases |s|
  {
    if |s| < 2 then [s]
    else if s[..2] == Separator then [""] + Split(s[2..])
    else
      var rest := Split(s[1..]);
      [[s[0]] + rest[0]] + rest[1..]
  }

  /** Joining the parts of a split gives back the original string. */
  lemma {:induction false} JoinSplit(s: string)
    ensures Join(Split(s)) == s
    decreases |s|
  {
    if |s| < 2 {
    } else if s[..2] == Separator {
      var rest := Split(s[2..]);
      JoinSplit(s[2..]);
      assert Split(s) == [""] + rest;
      assert Join([""] + rest) == Separator + Join(rest) by {
        assert ([""] + rest)[1..] == rest;
      }
      assert s == s[..2] + s[2..];
    } else {
      var rest := Split(s[1..]);
      JoinSplit(s[1..]);
      JoinCons(s[0], rest);
      assert s == [s[0]] + s[1..];
    }
  }

  /** Prefixing the first part with a character prefixes the join. */
  lemma {:induction false} JoinCons(c: char, parts: seq<string>)
    requires |parts| >= 1
    ensures Join([[c] + parts[0]] + parts[1..]) == [c] + Join(parts)
  {
    var q := [[c] + parts[0]] + parts[1..];
    assert q[0] == [c] + parts[0] && q[1..] == parts[1..];
    if |parts| > 1 {
      var tail := Join(parts[1..]);
      assert Join(q) == ([c] + parts[0]) + Separator + tail;
      assert ([c] + parts[0]) + Separator + tail == [c] + (parts[0] + Separator + tail);
    }
  }

  /** The first part opens the joined string, followed by the separator
      when more parts follow. */
  lemma {:induction false} JoinHead(parts: seq<string>)
    requires |parts| >= 1
    ensures |parts[0]| <= |Join(parts)| && Join(parts)[..|parts[0]|] == parts[0]
    ensures |parts| > 1 ==>
      |parts[0]| + 2 <= |Join(parts)| && Join(parts)[|parts[0]|..|parts[0]| + 2] == Separator
  {
    if |parts| > 1 {
      assert Join(parts) == parts[0] + Separator + Join(parts[1..]);
    }
  }

  /** The parts of a split have the shape of a left-to-right split. */
  lemma {:induction false} SplitWellShaped(s: string)
    ensures WellSplit(Split(s))
    decreases |s|
  {
    SplitUnfold(s);
    if |s| < 2 {
    } else if s[..2] == Separator {
      SplitWellShaped(s[2..]);
      var rest := Split(s[2..]);
      hide Split;
      var parts := [""] + rest;
      assert forall k :: 0 < k < |parts| ==> parts[k] == rest[k - 1];
    } else {
      SplitWellShaped(s[1..]);
      JoinSplit(s[1..]);
      var rest := Split(s[1..]);
      JoinHead(rest);
      hide Split, Join;
      assert rest[0] != [] ==> rest[0][0] == s[1];
      assert |rest| > 1 && rest[0] == [] ==> s[1] == '\n';
      ConsWellSplit(s[0], s[1], rest);
    }
  }

  /** Putting a character in front of the first part of a split keeps its
      shape, provided it does not form a separator with the character `d`
      that follows it. */
  lemma {:induction false} ConsWellSplit(c: char, d: char, rest: seq<string>)
    requires WellSplit(rest)
    requires c == '\n' ==> d != '\n'
    requires rest[0] != [] ==> rest[0][0] == d
    requires |rest| > 1 && rest[0] == [] ==> d == '\n'
    ensures WellSplit([[c] + rest[0]] + rest[1..])
  {
    var p0 := [c] + rest[0];
    var parts := [p0] + rest[1..];
    assert SeparatorFree(p0) by {
      forall i | 0 <= i < |p0| - 1
        ensures !(p0[i] == '\n' && p0[i + 1] == '\n')
      {
        if i > 0 {
          assert p0[i] == rest[0][i - 1] && p0[i + 1] == rest[0][i];
        } else {
          assert p0[1] == rest[0][0];
        }
      }
    }
    assert rest[0] != [] ==> p0[|p0| - 1] == rest[0][|rest[0]| - 1];
    assert forall k :: 0 < k < |parts| ==> parts[k] == rest[k];
  }

  /** A string without the separator is not split at all. */
  lemma {:induction false} SplitSeparatorFree(s: string)
    requires SeparatorFree(s)
    ensures Split(s) == [s]
    decreases |s|
  {
    if |s| >= 2 {
      assert s[..2] != Separator by { assert !(s[0] == '\n' && s[1] == '\n'); }
      assert SeparatorFree(s[1..]) by {
        forall i | 0 <= i < |s[1..]| - 1 ensures !(s[1..][i] == '\n' && s[1..][i + 1] == '\n') {
          assert s[1..][i] == s[i + 1] && s[1..][i + 1] == s[i + 2];
        }
      }
      SplitSeparatorFree(s[1..]);
      assert [s[0]] + s[1..] == s;
    }
  }

  /** `Split` is the only well-shaped decomposition of a string: any
      sequence of parts that joins back to `s` and has the shape of a
      left-to-right split is `Split(s)`. */
  lemma {:induction false} SplitUnique(parts: seq<string>, s: string)
    requires WellSplit(parts) && Join(parts) == s
    ensures Split(s) == parts
    decreases |s|, |parts|
  {
    var p0 := parts[0];
    JoinUnfold(parts);
    SplitUnfold(s);
    hide Join, Split;
    if |parts| == 1 {
      SplitSeparatorFree(s);
    } else {
      var tail := parts[1..];
      WellSplitTail(parts);
      if p0 == [] {
        assert s[..2] == Separator && s[2..] == Join(tail);
        SplitUnique(tail, s[2..]);
        assert parts == [""] + tail;
      } else {
        var q := [p0[1..]] + tail;
        ShiftJoin(parts, s);
        ShiftWellSplit(parts);
        SplitUnique(q, s[1..]);
        assert [s[0]] + p0[1..] == p0;
        assert parts == [p0] + tail;
      }
    }
  }

  /** One step of `Join`. */
  lemma {:induction false} JoinUnfold(parts: seq<string>)
    requires |parts| >= 1
    ensures |parts| == 1 ==> Join(parts) == parts[0]
    ensures |parts| > 1 ==> Join(parts) == parts[0] + Separator + Join(parts[1..])
  {
  }

  /** One step of `Split`. */
  lemma {:induction false} SplitUnfold(s: string)
    ensures |s| < 2 ==> Split(s) == [s]
    ensures |s| >= 2 && s[..2] == Separator ==> Split(s) == [""] + Split(s[2..])
    ensures |s| >= 2 && s[..2] != Separator ==>
      Split(s) == [[s[0]] + Split(s[1..])[0]] + Split(s[1..])[1..]
  {
  }

  /** Dropping the first part keeps the shape of a split. */
  lemma {:induction false} WellSplitTail(parts: seq<string>)
    requires WellSplit(parts) && |parts| > 1
    ensures WellSplit(parts[1..])
  {
    var tail := parts[1..];
    assert forall k :: 0 <= k < |tail| ==> tail[k] == parts[k + 1];
  }

  /** When the first part is not empty, the joined string does not open
      with the separator, and without its first character it is the join
      of the parts with the first one shortened by a character. */
  lemma {:induction false} ShiftJoin(parts: seq<string>, s: string)
    requires WellSplit(parts) && Join(parts) == s && |parts| > 1 && parts[0] != []
    ensures |s| >= 2 && s[..2] != Separator && s[0] == parts[0][0]
    ensures s[1..] == Join([parts[0][1..]] + parts[1..])
  {
    var p0, tail := parts[0], parts[1..];
    var q := [p0[1..]] + tail;
    assert s == p0 + Separator + Join(tail);
    assert s[0] == p0[0];
    if |p0| >= 2 {
      assert s[1] == p0[1];
      assert !(p0[0] == '\n' && p0[1] == '\n');
    } else {
      assert p0[|p0| - 1] != '\n';
    }
    assert q[1..] == tail;
    assert Join(q) == p0[1..] + Separator + Join(tail);
  }

  /** Shortening a non-empty first part by its first character keeps the
      shape of a split. */
  lemma {:induction false} ShiftWellSplit(parts: seq<string>)
    requires WellSplit(parts) && |parts| > 1 && parts[0] != []
    ensures WellSplit([parts[0][1..]] + parts[1..])
  {
    var p0 := parts[0];
    var q := [p0[1..]] + parts[1..];
    assert SeparatorFree(p0[1..]) by {
      forall i | 0 <= i < |p0[1..]| - 1 ensures !(p0[1..][i] == '\n' && p0[1..][i + 1] == '\n') {
        assert p0[1..][i] == p0[i + 1] && p0[1..][i + 1] == p0[i + 2];
      }
    }
    assert forall k :: 1 <= k < |q| ==> q[k] == parts[k];
    assert q[0] != [] ==> q[0][|q[0]| - 1] == p0[|p0| - 1];
  }

  // --------------------------------------------------------------- decimal

  predicate IsDigit(c: char) {
    '0' <= c <= '9'
  }

  predicate AllDigits(s: string) {
    forall k :: 0 <= k < |s| ==> IsDigit(s[k])
  }

  function DigitChar(d: nat): (c: char)
    requires d < 10
    ensures IsDigit(c)
  {
    (48 + d) as char
  }

  function DigitValue(c: char): nat
    requires IsDigit(c)
  {
    (c as int) - 48
  }

  /** Python's `str(n)` for a non-negative integer: its decimal digits,
      most significant first. */
  function DecimalString(n: nat): (r: string)
    ensures |r| >= 1 && AllDigits(r)
    ensures r[0] == '0' ==> n == 0
    decreases n
  {
    if n < 10 then [DigitChar(n)] else DecimalString(n / 10) + [DigitChar(n % 10)]
  }

  /** The number a string of decimal digits denotes. */
  function DecimalValue(s: string): nat
    requires AllDigits(s)
  {
    if s == [] then 0 else DecimalValue(s[..|s| - 1]) * 10 + DigitValue(s[|s| - 1])
  }

  /** Reading back the decimal digits of `n` gives `n`. */
  lemma {:induction false} DecimalRoundTrip(n: nat)
    ensures DecimalValue(DecimalString(n)) == n
    decreases n
  {
    if n >= 10 {
      DecimalRoundTrip(n / 10);
      var s := DecimalString(n);
      assert s[..|s| - 1] == DecimalString(n / 10);
    }
  }

  /** Distinct numbers have distinct decimal strings. */
  lemma {:induction false} DecimalStringInjective(m: nat, n: nat)
    requires DecimalString(m) == DecimalString(n)
    ensures m == n
  {
    DecimalRoundTrip(m);
    DecimalRoundTrip(n);
  }
}

=== FILE: tokens.dfy ===
/** Word tokenisation of the keyword-overlap scorer: `s.lower()` followed by
    `re.findall(r'\w+', ...)`, collected into a set. Word characters and
    case folding are those of ASCII. */
module Tokens {

  /** A character matched by `\w`: a letter, a digit or the underscore. */
  predicate IsWordChar(c: char) {
    ('a' <= c <= 'z') || ('A' <= c <= 'Z') || ('0' <= c <= '9') || c == '_'
  }

  predicate AllWord(s: string) {
    forall k :: 0 <= k < |s| ==> IsWordChar(s[k])
  }

  /** `str.lower()` on one character. */
  function LowerChar(c: char): (d: char)
    ensures !('A' <= d <= 'Z')
    ensures IsWordChar(d) <==> IsWordChar(c)
    ensures !('A' <= c <= 'Z') ==> d == c
  {
    if 'A' <= c <= 'Z' then (c as int + 32) as char else c
  }

  /** `str.lower()`. */
  function Lower(s: string): (r: string)
    ensures |r| == |s| && forall k :: 0 <= k < |s| ==> r[k] == LowerChar(s[k])
  {
    seq(|s|, k requires 0 <= k < |s| => LowerChar(s[k]))
  }

  /** Length of the run of word characters `s` starts with. */
  function RunLength(s: string): (n: nat)
    ensures n <= |s| && AllWord(s[..n])
    ensures n == |s| || !IsWordChar(s[n])
    decreases |s|
  {
    if s == [] || !IsWordChar(s[0]) then 0 else 1 + RunLength(s[1..])
  }

  /** `re.findall(r'\w+', s)`: the maximal runs of word characters, left
      to right. */
  function Words(s: string): (ws: seq<string>)
    ensures forall k :: 0 <= k < |ws| ==> ws[k] != [] && AllWord(ws[k])
    decreases |s|
  {
    if s == [] then []
    else if !IsWordChar(s[0]) then Words(s[1..])
    else
      var n := RunLength(s);
      [s[..n]] + Words(s[n..])
  }

  /** `s[i..j]` is a maximal run of word characters: it cannot be extended
      on either side. */
  predicate IsMaximalRun(s: string, i: int, j: int) {
    && 0 <= i < j <= |s|
    && AllWord(s[i..j])
    && (i == 0 || !IsWordChar(s[i - 1]))
    && (j == |s| || !IsWordChar(s[j]))
  }

  /** The words of `s` are exactly its maximal runs of word characters. */
  lemma {:induction false} WordsAreMaximalRuns(s: string, w: string)
    ensures w in Words(s) <==> exists i, j :: IsMaximalRun(s, i, j) && s[i..j] == w
  {
    if w in Words(s) {
      WordsSound(s, w);
    }
    if exists i, j :: IsMaximalRun(s, i, j) && s[i..j] == w {
      var i, j :| IsMaximalRun(s, i, j) && s[i..j] == w;
      WordsComplete(s, i, j);
    }
  }

  /** Every word found is a maximal run of word characters. */
  lemma {:induction false} WordsSound(s: string, w: string)
    requires w in Words(s)
    ensures exists i, j :: IsMaximalRun(s, i, j) && s[i..j] == w
    decreases |s|
  {
    if !IsWordChar(s[0]) {
      WordsSound(s[1..], w);
      var i, j :| IsMaximalRun(s[1..], i, j) && s[1..][i..j] == w;
      UnshiftRun(s, 1, i, j);
    } else {
      var n := RunLength(s);
      assert Words(s) == [s[..n]] + Words(s[n..]);
      if w == s[..n] {
        assert IsMaximalRun(s, 0, n) && s[0..n] == w;
      } else {
        WordsSound(s[n..], w);
        var i, j :| IsMaximalRun(s[n..], i, j) && s[n..][i..j] == w;
        UnshiftRun(s, n, i, j);
      }
    }
  }

  /** Every maximal run of word characters is found as a word. */
  lemma {:induction false} WordsComplete(s: string, i: int, j: int)
    requires IsMaximalRun(s, i, j)
    ensures s[i..j] in Words(s)
    decreases |s|
  {
    // `hide` keeps the definitions named out of the rest of this proof,
    // which needs only their contracts; it keeps the proof small
    hide Words;
    assert s[i..j][0] == s[i];
    WordsUnfold(s);
    if !IsWordChar(s[0]) {
      ShiftRun(s, 1, i, j);
      WordsComplete(s[1..], i - 1, j - 1);
    } else {
      var n := RunLength(s);
      RunPlacement(s, i, j);
      if i == 0 {
        assert s[i..j] == s[..n];
      } else {
        ShiftRun(s, n, i, j);
        WordsComplete(s[n..], i - n, j - n);
      }
    }
  }

  /** One step of `Words`: a leading non-word character is skipped, a
      leading run is taken whole. */
  lemma {:induction false} WordsUnfold(s: string)
    ensures s != [] && !IsWordChar(s[0]) ==> Words(s) == Words(s[1..])
    ensures s != [] && IsWordChar(s[0]) ==>
      Words(s) == [s[..RunLength(s)]] + Words(s[RunLength(s)..])
  {
  }

  /** When `s` opens with a word character, a maximal run is either that
      first run or lies wholly after it. */
  lemma {:induction false} RunPlacement(s: string, i: int, j: int)
    requires IsMaximalRun(s, i, j) && IsWordChar(s[0])
    ensures i == 0 ==> j == RunLength(s)
    ensures i > 0 ==> i > RunLength(s)
  {
    if i == 0 {
      RunEndsAt(s, j);
    } else {
      // s[i - 1] is not a word character, so the first run ends before it
      AllWordAt(s, 0, RunLength(s));
    }
  }

  /** A maximal run of `s` lying at or after `d` is a maximal run of `s[d..]`. */
  lemma {:induction false} ShiftRun(s: string, d: nat, i: int, j: int)
    requires IsMaximalRun(s, i, j) && d <= i
    ensures IsMaximalRun(s[d..], i - d, j - d) && s[d..][i - d..j - d] == s[i..j]
  {
    assert s[d..][i - d..j - d] == s[i..j];
    assert j < |s| ==> s[d..][j - d] == s[j];
    assert i - d > 0 ==> s[d..][i - d - 1] == s[i - 1];
  }

  /** A maximal run of `s[d..]` is one of `s` unless it could be extended
      to the left across `d`. */
  lemma {:induction false} UnshiftRun(s: string, d: nat, i: int, j: int)
    requires d <= |s| && IsMaximalRun(s[d..], i, j)
    requires i > 0 || d == 0 || !IsWordChar(s[d - 1])
    ensures IsMaximalRun(s, i + d, j + d) && s[i + d..j + d] == s[d..][i..j]
  {
    assert s[i + d..j + d] == s[d..][i..j];
    assert j + d < |s| ==> s[j + d] == s[d..][j];
    assert i > 0 ==> s[i + d - 1] == s[d..][i - 1];
  }

  /** The characters of a run of word characters, position by position. */
  lemma {:induction false} AllWordAt(s: string, i: int, j: int)
    requires 0 <= i <= j <= |s| && AllWord(s[i..j])
    ensures forall k :: i <= k < j ==> IsWordChar(s[k])
  {
    forall k | i <= k < j ensures IsWordChar(s[k]) { assert s[k] == s[i..j][k - i]; }
  }

  /** A maximal run starting at 0 ends where `RunLength` says. */
  lemma {:induction false} RunEndsAt(s: string, j: int)
    requires IsMaximalRun(s, 0, j)
    ensures j == RunLength(s)
  {
    AllWordAt(s, 0, j);
    AllWordAt(s, 0, RunLength(s));
  }

  /** A non-word character separates words: the words of `a + [c] + b` are
      those of `a` followed by those of `b`. */
  lemma {:induction false} WordsConcat(a: string, c: char, b: string)
    requires !IsWordChar(c)
    ensures Words(a + [c] + b) == Words(a) + Words(b)
    decreases |a|
  {
    var s := a + [c] + b;
    if a == [] {
      assert s[1..] == b;
    } else if !IsWordChar(a[0]) {
      assert s[1..] == a[1..] + [c] + b;
      WordsConcat(a[1..], c, b);
    } else {
      var n := RunLength(a);
      RunLengthPrefix(a, [c] + b);
      assert a + [c] + b == a + ([c] + b);
      assert s[..n] == a[..n];
      assert s[n..] == a[n..] + [c] + b;
      WordsConcat(a[n..], c, b);
    }
  }

  /** The run `a` starts with is not extended by appending text that starts
      with a non-word character. */
  lemma {:induction false} RunLengthPrefix(a: string, b: string)
    requires b != [] && !IsWordChar(b[0])
    ensures RunLength(a + b) == RunLength(a)
    decreases |a|
  {
    if a == [] {
      assert a + b == b;
    } else if IsWordChar(a[0]) {
      assert (a + b)[1..] == a[1..] + b;
      RunLengthPrefix(a[1..], b);
    }
  }

  /** The set of lower-cased word tokens of `s`. */
  function TokenSet(s: string): (ts: set<string>)
    ensures forall w :: w in ts ==> w != [] && AllWord(w) && Lower(w) == w
  {
    var ws := Words(Lower(s));
    assert forall w :: w in ws ==> Lower(w) == w by {
      forall w | w in ws ensures Lower(w) == w {
        WordsSound(Lower(s), w);
        var i, j :| IsMaximalRun(Lower(s), i, j) && Lower(s)[i..j] == w;
        forall k | 0 <= k < |w| ensures Lower(w)[k] == w[k] {
          assert w[k] == Lower(s)[i + k];
        }
      }
    }
    set w | w in ws
  }

  /** The tokens are exactly the maximal runs of word characters of the
      lower-cased text; in particular a text without a word character has
      no token. */
  lemma {:induction false} TokenSetIsRuns(s: string, w: string)
    ensures w in TokenSet(s) <==> exists i, j :: IsMaximalRun(Lower(s), i, j) && Lower(s)[i..j] == w
  {
    WordsAreMaximalRuns(Lower(s), w);
  }

  /** A text without a word character, the empty text among them, has no
      token. */
  lemma {:induction false} NoWordNoToken(s: string)
    requires forall k :: 0 <= k < |s| ==> !IsWordChar(s[k])
    ensures TokenSet(s) == {}
  {
    var l := Lower(s);
    // a maximal run starts with a word character, and `l` has none
    assert forall i, j :: IsMaximalRun(l, i, j) ==> l[i..j][0] == l[i] && !IsWordChar(l[i]);
    forall w ensures w !in TokenSet(s) {
      TokenSetIsRuns(s, w);
    }
  }

  /** Lower-casing twice is lower-casing once. */
  lemma {:induction false} LowerIdempotent(s: string)
    ensures Lower(Lower(s)) == Lower(s)
  {
  }

  /** Tokens are insensitive to the case of the text. */
  lemma {:induction false} TokenSetIgnoresCase(s: string)
    ensures TokenSet(Lower(s)) == TokenSet(s)
  {
    LowerIdempotent(s);
  }

  /** A non-word character separates tokens: the tokens of `a + [c] + b`
      are those of `a` together with those of `b`. */
  lemma {:induction false} TokenSetConcat(a: string, c: char, b: string)
    requires !IsWordChar(c)
    ensures TokenSet(a + [c] + b) == TokenSet(a) + TokenSet(b)
  {
    assert Lower(a + [c] + b) == Lower(a) + [LowerChar(c)] + Lower(b);
    WordsConcat(Lower(a), LowerChar(c), Lower(b));
  }

  /** A lower-case word on its own is a single token. */
  lemma {:induction false} TokenSetOfWord(w: string)
    requires w != [] && AllWord(w) && Lower(w) == w
    ensures TokenSet(w) == {w}
  {
    assert IsMaximalRun(w, 0, |w|) by { assert w[0..|w|] == w; }
    RunEndsAt(w, |w|);
    assert w[|w|..] == [];
    assert Words(w) == [w[..|w|]] + Words(w[|w|..]);
    assert w[..|w|] == w;
  }
}
